=== FILE: README.md ===
# Template scene converter and bulk template downloader

This project models two sequential components of a video-template tool.

* **The template-to-scene converter** (`convert_to_scene_json`) is a pure
  function in the model. It takes a template record and a base path and
  returns a scene:
  * it harvests the file stems of the cover paths that, with backslashes read as
    slashes, contain `video/cover/`;
  * it emits raw image blocks from the video and mutable materials;
  * it drops every `video` block under `video/` whose stem matches a harvested
    cover;
  * it lays the survivors out in a cascade (`x = 50·(k+1)`, `y = 100`);
  * it adds a text block for every text material that has text left after
    stripping brackets, in the row of the material's original index;
  * it adds an audio block for every audio material with a `path` or a `url`;
  * the scene's children are the images, then the texts, then the audios.
* **The bulk downloader** (`bulk_download_from_metadata`) is a left-to-right
  pass over the template entries of a metadata file. It threads the registry
  of known template names (the `templates` table) and puts every entry into
  exactly one bucket: `downloaded`, `skipped` or `failed`. The report also
  carries the number of entries. A re-run from the registry a run leaves
  behind skips everything that run downloaded or skipped. If a request that
  failed in the first run succeeds in the re-run, that entry is downloaded
  then, so a re-run is only guaranteed to download nothing when the network
  answers as before.

Modules:

* `Wrappers`: `Option`.
* `Sequences`: subsequences.
* `PyStr`: the `str` methods `replace`, `in`, `startswith` and `strip("[]")`.
* `PosixPath`: `basename`, and `splitext(...)[0]` with the rule that a
  leading dot does not start an extension.
* `Decimal`: `str(int)`, which renders the HTTP status in a failure reason.
* `SceneConvert` and `SceneLaws`: the converter and its properties.
* `TemplateStore`: the registry as a set of names.
* `BulkDownload`, `FoldLaws` and `BulkLaws`:
  * `BulkDownload` defines the pass, the per-entry classification and the
    loop as a method.
  * `FoldLaws` proves laws that hold for any per-entry classifier of the
    downloader's shape (`BulkDownload.Sound`).
  * `BulkLaws` instantiates those laws for the downloader and adds the facts
    that depend on the network.

How inputs are represented:

* An empty string stands for a missing or falsy string field, which is
  Python truthiness. Keys whose default is not empty, such as the canvas size,
  `text_size` and `duration`, are `Option<int>`.
* The network is a parameter `fetch(index, url)`. It answers either
  `Raised(message)`, when the request raised, or `Response(status, unpack)`,
  where `unpack` is `Unpacked` or `UnpackFailed(message)` for the writing,
  extracting and recording that follow.
* The path component of a URL is a parameter `urlPath(url)`.
* The base path, which the program derives from the output file name, is a
  parameter of the converter.

The model follows the code in the places where the code's behaviour is not the obvious one:

* `strip("[]")` removes every leading and trailing bracket, not one enclosing pair.
* The downloader fails a response whose status is not exactly 200. A 2xx
  status other than 200 therefore counts as a failure.
* Cover stems are taken from the cover path as written, while the filter takes
  the stem of the normalised video path. See `SceneLaws.BackslashCoverDoesNotSuppress`.

## Model

| member | source | states |
|---|---|---|
| PyStr.Contains | convert_scene_json.py:25 | `sub in s` holds exactly when `sub` occurs at some index of `s` |
| PyStr.NormalizeSlashes | convert_scene_json.py:25 | `replace("\\", "/")` keeps the length, turns each backslash into `/` and keeps every other character |
| PyStr.NormalizeIs | convert_scene_json.py:67 | a string that agrees with the input except for slashes where it has backslashes is the normalised path |
| PyStr.StripLeadingSpec | convert_scene_json.py:83 | the leading cut removes a run of brackets and stops at a non-bracket |
| PyStr.StripTrailingSpec | convert_scene_json.py:83 | the trailing cut removes a run of brackets and stops at a non-bracket |
| PyStr.StripBracketsSpec | convert_scene_json.py:83 | `strip("[]")` returns a middle slice with only brackets outside it, neither starting nor ending with a bracket |
| PyStr.BracketTrimUnique | convert_scene_json.py:83 | that description fixes the result uniquely |
| PyStr.StripEmptyIffAllBrackets | convert_scene_json.py:83-87 | the stripped text is empty exactly when the content is made only of brackets |
| PyStr.StripIdempotent | convert_scene_json.py:83 | stripping twice gives the same result as stripping once |
| PyStr.StripNestedPair | convert_scene_json.py:83 | `"[[a]]"` strips to `"a"`: every bracket at an end goes, not one pair |
| PyStr.StripReversedPair | convert_scene_json.py:83 | `"]a["` strips to `"a"`: the ends are stripped independently |
| PyStr.StripKeepsInnerBrackets | convert_scene_json.py:83 | `"[a]b]"` strips to `"a]b"`: inner brackets stay |
| PyStr.StripWrappedCaption | convert_scene_json.py:83 | `"[Hello World]"` strips to `"Hello World"` |
| PyStr.StripOnlyBrackets | convert_scene_json.py:83 | `"[]"` strips to the empty string |
| PosixPath.RFind | convert_scene_json.py:26 | the index of the last occurrence, or -1, with no occurrence after it |
| PosixPath.Basename | convert_scene_json.py:26 | the longest suffix without `/`, preceded by `/` when it is not the whole path |
| PosixPath.SplitExtRootSpec | convert_scene_json.py:26 | the root is a prefix; what is cut is a final dot-extension preceded by a non-dot in the last component; when nothing is cut, every dot in the last component has only dots before it |
| PosixPath.StemSpec | convert_scene_json.py:26 | the stem is a prefix of the base name and contains no `/` |
| PosixPath.LeadingDotIsNotExtension | convert_scene_json.py:26 | a name whose only dot is the leading one keeps that dot |
| PosixPath.StemIs | convert_scene_json.py:69 | the stem of a path whose last component has a real extension is the text between the last `/` and the last `.` |
| PosixPath.StemOfCover | convert_scene_json.py:26 | the stem of `video/cover/clip1.jpg` is `clip1` |
| PosixPath.StemOfDoubleExtension | convert_scene_json.py:26 | only the last extension is removed: `a.tar.gz` has stem `a.tar` |
| PosixPath.StemOfHiddenFile | convert_scene_json.py:26 | `dir/.hidden` has stem `.hidden` |
| SceneConvert.VideoImageBlocks | convert_scene_json.py:30-50 | every video-material block has a non-empty origin path, the uri `base/origin`, and source cover or video |
| SceneConvert.MutableImageBlocks | convert_scene_json.py:53-62 | every mutable block has source mutable, a non-empty origin path and the uri built from it |
| SceneConvert.RawImageBlocks | convert_scene_json.py:29-62 | all raw blocks are well formed; no video-material block follows a mutable block; the length is the sum of the two parts |
| SceneConvert.KeptImages | convert_scene_json.py:64-76 | a block is kept exactly when it is raw and not suppressed; every non-video block is kept; the kept list is a subsequence of the raw list |
| SceneConvert.PlaceImageBlocks | convert_scene_json.py:65-76 | the filter loop places the k-th kept block at `(50·(k+1), 100)` with unit scale |
| SceneConvert.TextBlocks | convert_scene_json.py:79-99 | every text block is a non-empty, centred caption at `x = 100`; rows lie in `[300, 300 + 100·n)` and `y` strictly increases with the material index |
| SceneConvert.AudioBlocks | convert_scene_json.py:102-117 | a block occurs exactly when some material has a path or url and produces it; each sits at `(0, 0)` with start 0; there are no more blocks than materials |
| SceneConvert.Convert | convert_scene_json.py:12-127 | the width and height default to 720 and 1280; children are ordered images, then texts, then audios; their number is the sum of the three sections |
| SceneConvert.DurationSeconds | convert_scene_json.py:112 | seconds times 100000 equals the raw duration |
| SceneLaws.ChildrenSections | convert_scene_json.py:125 | picking images, texts and audios out of the children gives back exactly the three section lists, in order |
| SceneLaws.ImagesLeadChildren | convert_scene_json.py:125 | the laid-out kept images are the first children |
| SceneLaws.ImageCascade | convert_scene_json.py:74-75 | the k-th child among the images sits at `(50·(k+1), 100)` with unit scale, so image x-coordinates strictly increase |
| SceneLaws.ThreeImageCascade | convert_scene_json.py:74 | three kept blocks sit at x = 50, 100, 150 |
| SceneLaws.ImageChildIsKept | convert_scene_json.py:64-76 | every image child is a kept raw block |
| SceneLaws.KeptIsImageChild | convert_scene_json.py:64-125 | every kept raw block appears among the children, placed at its slot |
| SceneLaws.DedupLaw | convert_scene_json.py:23-72 | a video path under `video/` with the stem of a harvested cover yields no video image, and the cover image itself is kept |
| SceneLaws.OnlySuppressedDropped | convert_scene_json.py:66-76 | every raw block that is not suppressed, including every cover and mutable block, reaches the scene |
| SceneLaws.CoverStemsOfOne | convert_scene_json.py:23-27 | a single material contributes its cover stem exactly when its normalised cover path contains `video/cover/` |
| SceneLaws.DedupExample | convert_scene_json.py:23-76 | a clip `video/clip1.mp4` with cover `video/cover/clip1.jpg` yields only the cover image, at x = 50 |
| SceneLaws.BackslashCoverDoesNotSuppress | convert_scene_json.py:26-70 | a cover written with backslashes keeps its directory in its stem, so the matching backslash-written clip is not suppressed |
| SceneLaws.VideoBlocksEmitted | convert_scene_json.py:34-50 | every present cover yields a cover block and every present path a video block |
| SceneLaws.VideoBlocksOrigin | convert_scene_json.py:30-50 | every video-material block comes from one material's cover or path |
| SceneLaws.MutableImageBlocksMembers | convert_scene_json.py:53-62 | mutable blocks are exactly the blocks of the present mutable covers |
| SceneLaws.MutableImageBlocksAppend | convert_scene_json.py:53-62 | mutable blocks are emitted material by material, in list order |
| SceneLaws.VideoImageBlocksAppend | convert_scene_json.py:30-50 | blocks are emitted material by material, in list order |
| SceneLaws.KeptImagesAppend | convert_scene_json.py:66-76 | the filter works block by block, so it keeps the survivors in order |
| SceneLaws.AudioBlocksAppend | convert_scene_json.py:105-117 | audio blocks are emitted in material order |
| SceneLaws.TextBlocksEmitted | convert_scene_json.py:82-92 | every material with text left gets its block in the row of its original index |
| SceneLaws.TextBlocksOrigin | convert_scene_json.py:82-92 | every text block comes from a material with text left, in that material's row |
| SceneLaws.TextOmittedIffOnlyBrackets | convert_scene_json.py:83-87 | a text material is skipped exactly when its content is only brackets |
| SceneLaws.TextStyle | convert_scene_json.py:83-97 | the text is the stripped content; the font lies under the base path when given and is empty otherwise; the size is the given `text_size` and defaults to 30; the alignment is `center`; the position is `(100, 300 + 100·i)` |
| SceneLaws.AudioSourcePreference | convert_scene_json.py:106-116 | the audio uri uses `path` when present and `url` otherwise; the duration is the given one and defaults to 0; the block sits at `(0, 0)` with start 0 |
| SceneLaws.DurationExamples | convert_scene_json.py:112 | 500000 raw units are 5 seconds |
| Decimal.ParseIntToString | download_extract.py:54 | the status rendered in `HTTP <code>` reads back as the code, so distinct codes give distinct reasons |
| TemplateStore.Save | download_extract.py:15-17 | after `INSERT OR IGNORE` the name is present, the presence of every other name is unchanged, and inserting a present name changes nothing |
| BulkDownload.HttpReason | download_extract.py:54 | the reason starts with `HTTP ` |
| BulkDownload.TemplateId | download_extract.py:38 | the template name contains no `/` |
| BulkDownload.FetchOutcome | download_extract.py:51-67 | a download happens exactly on status 200 with successful unpacking; otherwise the failure carries the name and, respectively, the exception message, `HTTP <status>` or the unpacking error message |
| BulkDownload.ClassifySpec | download_extract.py:33-67 | failure by index exactly when the URL or name is missing, with the two reasons; skipped exactly when the name is registered; a download only after a request; a new name's outcome is the fetch outcome of its request |
| BulkDownload.ClassifyEntry | download_extract.py:33-67 | the loop body as written: a missing URL fails by index, skipping happens exactly for a registered name, and a download only for a name that was requested |
| BulkDownload.ClassificationSound | download_extract.py:33-67 | the loop body names every non-failed entry by its URL's last segment and skips exactly the registered names |
| BulkDownload.Processed | download_extract.py:32-67 | the registry after any prefix of the pass contains the starting registry |
| BulkDownload.Accounting | download_extract.py:32-67 | every processed entry lands in exactly one bucket |
| BulkDownload.BulkDownloadFromMetadata | download_extract.py:26-74 | the loop computes the pass; the bucket sizes sum to the total, which is the number of entries; the registry only grows |
| FoldLaws.RegistryGrows | download_extract.py:63 | the registry only grows along the pass |
| FoldLaws.RegistryIsStartPlusDownloaded | download_extract.py:63-64 | after any prefix, the registry is the starting registry plus the names downloaded so far |
| FoldLaws.NameRegisteredAfter | download_extract.py:47-63 | a downloaded or skipped name stays in the registry from its entry on |
| FoldLaws.LaterSameNameSkipped | download_extract.py:47-63 | after a name is downloaded or skipped, every later entry of that name is skipped |
| FoldLaws.SecondPassSkips | download_extract.py:47-63 | a pass started from the registry the first pass left behind skips every entry the first pass downloaded or skipped |
| FoldLaws.BucketsFollowTrace | download_extract.py:28-67 | each bucket is the in-order list of outcomes of its kind |
| FoldLaws.OutcomeRecorded | download_extract.py:35-67 | at the end, every entry's outcome sits in the matching bucket |
| FoldLaws.DownloadedDistinct | download_extract.py:47-64 | no name is downloaded twice, and no name registered at the start is downloaded |
| FoldLaws.PassDependsOnlyOnVisited | download_extract.py:32-67 | two loop bodies that agree at the registries the pass meets give the same pass |
| FoldLaws.BucketsKeepEntryOrder | download_extract.py:32-67 | the downloaded and skipped buckets are subsequences of the entries' names in loop order |
| BulkLaws.ReportAccounting | download_extract.py:32-73 | the three bucket sizes sum to `total`, which equals the number of entries |
| BulkLaws.UnnamedEntriesFailByIndex | download_extract.py:33-41 | a missing URL is reported as `Missing template_url`, and an empty name as `Cannot extract filename`, at the entry's index |
| BulkLaws.RegistryAfterSync | download_extract.py:63-64 | the final registry is the starting registry together with the downloaded names |
| BulkLaws.DownloadsAreNew | download_extract.py:47-64 | downloads are distinct and none was registered at the start |
| BulkLaws.ReportKeepsEntryOrder | download_extract.py:32-67 | the downloaded and skipped buckets list names in entry order |
| BulkLaws.LaterSameIdSkipped | download_extract.py:47-63 | within one run, a later entry with an already downloaded or skipped name is skipped |
| BulkLaws.RerunSkips | download_extract.py:47-63 | re-running with the resulting registry skips every entry the first run downloaded or skipped, whatever the network answers |
| BulkLaws.RerunDownloadsNothingTwice | download_extract.py:47-63 | nothing downloaded by the first run is downloaded by the re-run |
| BulkLaws.RerunSameNetworkDownloadsNothing | download_extract.py:47-63 | a re-run from the registry the first run left behind, with the network answering as before, downloads nothing |
| BulkLaws.RerunReportSkips | download_extract.py:47-63 | every name in the first report's downloaded or skipped bucket is in the skipped bucket of the re-run's report |
| BulkLaws.RunDependsOnlyOnRequests | download_extract.py:47-52 | a run depends on the network only through the requests it actually makes |
| BulkLaws.SkipIgnoresFetch | download_extract.py:47-49 | a skipped entry makes no request, and its outcome does not depend on the network |
| BulkLaws.ClassifyAgrees | download_extract.py:47-52 | one entry is classified alike by two networks that agree on its request |
| BulkLaws.HttpReasonCarriesStatus | download_extract.py:53-54 | the HTTP failure reason is `HTTP ` followed by the status, which can be read back |
| BulkLaws.TrailingSlashFails | download_extract.py:38-41 | any entry whose URL path ends in `/` fails with `Cannot extract filename` at its index |
| BulkLaws.TrailingSlashExample | download_extract.py:38-41 | `https://cdn.example/templates/` at index 7 fails with `Cannot extract filename` |
| BulkLaws.MissingUrlFails | download_extract.py:33-36 | at every index, a missing or empty `template_url` fails with `Missing template_url` |
| BulkLaws.NameIsLastSegment | download_extract.py:38 | the name of `/templates/t_42` is `t_42` |

## Left out

- Reading the template and metadata JSON files, writing the scene file, and `print`, because they are I/O. The converter takes a parsed template and returns the scene value.
- The `{"error": ...}` result for an unreadable metadata file (download_extract.py:20-24), because it is I/O. The pass starts from the parsed `data.templates` list, with a missing list read as empty.
- `requests.get`, writing the zip file and extracting it, because they are network and file I/O. They become the `fetch` parameter. An exception from any of them, or from `save_template`, is the `Raised` answer or `UnpackFailed`; both are recorded by name with their message.
- `urlparse`, because it is a library parser. The path component of a URL is the `urlPath` parameter, a total function. `urlparse` raises for some URLs, such as an unbalanced `[` in the host. The call is outside the `try` (download_extract.py:38), so such a URL aborts the whole pass without a report. The model does not represent that abort: the report-level laws hold only for runs whose URLs all parse.
- SQLite transactions and concurrency, because they are outside the sequential pass. An exception from `template_exists` propagates out of the program and is not modelled. The registry is a set of names.
- The float `duration * 10**(-5)`, because it is floating point. Audio blocks carry the raw integer. `SceneConvert.DurationSeconds` gives its exact real value in seconds, and IEEE rounding is not modelled.
- The derivation of the base path from the output file name (`Path(output_path).stem`), because it depends on the output path. The base path is a parameter.
- `template_url` values that are not strings, and JSON values of unexpected types, because the model takes typed records. A missing key and an empty string are both modelled.
- `os.path` on Windows, where `\` also separates components. The model uses POSIX semantics, where only `/` does.
- The Flask application, its routes and its own copies of `template_exists`/`save_template`, because they are not part of the two components.

=== FILE: bulk_download.dfy ===
/**
 * The bulk template downloader: a left-to-right pass over the template entries of a
 * metadata file that threads the registry of known templates and sorts each entry
 * into exactly one of three buckets.
 */
module BulkDownload {
  import opened Wrappers
  import opened PosixPath
  import opened Decimal
  import opened TemplateStore

  /** One element of `data.templates`; `None` is an entry without a `template_url` key. */
  datatype TemplateEntry = TemplateEntry(templateUrl: Option<string>)

  /** What became of writing the archive, extracting it and recording the name. */
  datatype Unpack = Unpacked | UnpackFailed(message: string)

  /**
   * What the network gave back for one entry: either the request raised, or a
   * response arrived with a status code, followed by the unpacking step.
   */
  datatype Attempt = Raised(message: string) | Response(status: int, unpack: Unpack)

  /** A failure is reported by entry index before a name is known, by name afterwards. */
  datatype Failure = AtIndex(index: nat, reason: string) | ForId(id: string, reason: string)

  datatype Outcome = Downloaded(id: string) | Skipped(id: string) | Failed(failure: Failure)

  datatype Report = Report(downloaded: seq<string>, skipped: seq<string>, failed: seq<Failure>, total: nat)

  datatype State = State(registry: Registry, downloaded: seq<string>, skipped: seq<string>, failed: seq<Failure>)

  const MissingUrl := "Missing template_url"
  const NoFilename := "Cannot extract filename"
  const StatusOk := 200

  /** The reason recorded for a response whose status is not 200. */
  function HttpReason(status: int): (r: string)
    ensures |r| > 5 && r[..5] == "HTTP "
  {
    "HTTP " + IntToString(status)
  }

  /** The entry's URL, with a missing key read as the empty (falsy) string. */
  function Url(e: TemplateEntry): (u: string)
    ensures e.templateUrl.None? ==> u == ""
    ensures e.templateUrl.Some? ==> u == e.templateUrl.value
  {
    e.templateUrl.GetOr("")
  }

  /** The template name: the last segment of the URL's path component. */
  function TemplateId(url: string, urlPath: string -> string): (id: string)
    ensures '/' !in id
  {
    var id := Basename(urlPath(url));
    assert forall k :: 0 <= k < |id| ==> id[k] != '/';
    id
  }

  /** Whether the entry reaches the network: it has a URL, a name, and the name is new. */
  predicate Consulted(reg: Registry, e: TemplateEntry, urlPath: string -> string)
  {
    Url(e) != "" && TemplateId(Url(e), urlPath) != "" && !Exists(reg, TemplateId(Url(e), urlPath))
  }

  /** The outcome of fetching and unpacking a template whose name is not yet registered. */
  function FetchOutcome(id: string, a: Attempt): (o: Outcome)
    ensures o.Downloaded? <==> a.Response? && a.status == StatusOk && a.unpack.Unpacked?
    ensures o.Downloaded? ==> o.id == id
    ensures !o.Downloaded? ==> o.Failed? && o.failure.ForId? && o.failure.id == id
    ensures a.Raised? ==> o == Failed(ForId(id, a.message))
    ensures a.Response? && a.status != StatusOk ==> o == Failed(ForId(id, HttpReason(a.status)))
    ensures a.Response? && a.status == StatusOk && a.unpack.UnpackFailed? ==> o == Failed(ForId(id, a.unpack.message))
  {
    match a
    case Raised(msg) => Failed(ForId(id, msg))
    case Response(status, unpack) =>
      if status != StatusOk then Failed(ForId(id, HttpReason(status)))
      else match unpack
        case Unpacked => Downloaded(id)
        case UnpackFailed(msg) => Failed(ForId(id, msg))
  }

  /**
   * The fate of entry `index` given the registry at that point. `fetch` answers the
   * request for entry `index` at its URL; it is consulted only when `Consulted` holds.
   */
  function Classify(reg: Registry, index: nat, e: TemplateEntry, urlPath: string -> string,
                    fetch: (nat, string) -> Attempt): (o: Outcome)
  {
    var url := Url(e);
    if url == "" then Failed(AtIndex(index, MissingUrl))
    else
      var id := TemplateId(url, urlPath);
      if id == "" then Failed(AtIndex(index, NoFilename))
      else if Exists(reg, id) then Skipped(id)
      else FetchOutcome(id, fetch(index, url))
  }

  /**
   * How an entry is classified: it fails by index exactly when it has no URL or no
   * name, it is skipped exactly when its name is already registered, anything else
   * carries its name, a download happens only for a name the network was asked about,
   * and a name the network is asked about gets exactly the outcome of its request.
   */
  lemma ClassifySpec(reg: Registry, index: nat, e: TemplateEntry, urlPath: string -> string,
                     fetch: (nat, string) -> Attempt)
    ensures var o, id := Classify(reg, index, e, urlPath, fetch), TemplateId(Url(e), urlPath);
            (Url(e) == "" ==> o == Failed(AtIndex(index, MissingUrl)))
            && (Url(e) != "" && id == "" ==> o == Failed(AtIndex(index, NoFilename)))
            && (o.Failed? && o.failure.AtIndex? <==> Url(e) == "" || id == "")
            && (!o.Failed? ==> Url(e) != "" && id != "" && o.id == id)
            && (o.Failed? && o.failure.ForId? ==> o.failure.id == id)
            && (o.Skipped? <==> Url(e) != "" && id != "" && Exists(reg, id))
            && (o.Downloaded? ==> Consulted(reg, e, urlPath))
            && (Consulted(reg, e, urlPath) ==> o == FetchOutcome(id, fetch(index, Url(e))))
  {
  }

  /** The name an entry goes by: empty when it has no URL or its URL path has no final segment. */
  function EntryName(e: TemplateEntry, urlPath: string -> string): (name: string)
    ensures Url(e) == "" ==> name == ""
    ensures Url(e) != "" ==> name == TemplateId(Url(e), urlPath)
  {
    if Url(e) == "" then "" else TemplateId(Url(e), urlPath)
  }

  /** `EntryName` as a function value. */
  function Naming(urlPath: string -> string): TemplateEntry -> string
  {
    e => EntryName(e, urlPath)
  }

  /** What the loop body does with one entry, given the registry it meets. */
  type Classifier = (Registry, nat, TemplateEntry) -> Outcome

  /** The loop body of the downloader as a classifier. */
  function Classification(urlPath: string -> string, fetch: (nat, string) -> Attempt): Classifier
  {
    (reg: Registry, index: nat, e: TemplateEntry) => Classify(reg, index, e, urlPath, fetch)
  }

  /**
   * The shape every law about the pass relies on: an entry that is not a failure
   * carries its name, and an entry is skipped exactly when it has a name that is
   * already registered.
   */
  ghost predicate Sound(cls: Classifier, name: TemplateEntry -> string)
  {
    forall reg: Registry, index: nat, e: TemplateEntry ::
      (!cls(reg, index, e).Failed? ==> name(e) != "" && cls(reg, index, e).id == name(e))
      && (cls(reg, index, e).Skipped? <==> name(e) != "" && name(e) in reg)
  }

  /** The downloader's loop body has that shape, under the entry names above. */
  lemma ClassificationSound(urlPath: string -> string, fetch: (nat, string) -> Attempt)
    ensures Sound(Classification(urlPath, fetch), Naming(urlPath))
  {
    forall reg: Registry, index: nat, e: TemplateEntry
      ensures var o := Classify(reg, index, e, urlPath, fetch);
              (!o.Failed? ==> EntryName(e, urlPath) != "" && o.id == EntryName(e, urlPath))
              && (o.Skipped? <==> EntryName(e, urlPath) != "" && EntryName(e, urlPath) in reg)
    {
      ClassifySpec(reg, index, e, urlPath, fetch);
    }
  }

  /** Appends an outcome to its bucket; a download also records the name. */
  function Record(s: State, o: Outcome): State
  {
    match o
    case Downloaded(id) => s.(registry := Save(s.registry, id), downloaded := s.downloaded + [id])
    case Skipped(id) => s.(skipped := s.skipped + [id])
    case Failed(f) => s.(failed := s.failed + [f])
  }

  /**
   * The state after classifying the first `n` entries in order, starting from
   * registry `reg0`. No name leaves the registry.
   */
  function Processed(reg0: Registry, entries: seq<TemplateEntry>, n: nat, cls: Classifier): (s: State)
    requires n <= |entries|
    ensures reg0 <= s.registry
  {
    if n == 0 then State(reg0, [], [], [])
    else
      var prev := Processed(reg0, entries, n - 1, cls);
      Record(prev, cls(prev.registry, n - 1, entries[n - 1]))
  }

  /** Every processed entry lands in exactly one bucket. */
  lemma {:induction false} Accounting(reg0: Registry, entries: seq<TemplateEntry>, n: nat, cls: Classifier)
    requires n <= |entries|
    ensures var s := Processed(reg0, entries, n, cls);
            |s.downloaded| + |s.skipped| + |s.failed| == n
  {
    if n > 0 {
      Accounting(reg0, entries, n - 1, cls);
    }
  }

  /** The outcome of entry `i`: its classification against the registry left by the entries before it. */
  function OutcomeAt(reg0: Registry, entries: seq<TemplateEntry>, i: nat, cls: Classifier): Outcome
    requires i < |entries|
  {
    cls(Processed(reg0, entries, i, cls).registry, i, entries[i])
  }

  /** The final registry and the report returned to the caller. */
  function Sync(reg0: Registry, entries: seq<TemplateEntry>, urlPath: string -> string,
                fetch: (nat, string) -> Attempt): (result: (Registry, Report))
    ensures result.1.total == |entries|
    ensures reg0 <= result.0
  {
    var s := Processed(reg0, entries, |entries|, Classification(urlPath, fetch));
    (s.registry, Report(s.downloaded, s.skipped, s.failed, |entries|))
  }

  /**
   * The branches of one loop iteration as written: check the URL and the name,
   * skip a known name, and only otherwise ask the network.
   */
  method ClassifyEntry(reg: Registry, idx: nat, e: TemplateEntry, urlPath: string -> string,
                       fetch: (nat, string) -> Attempt)
    returns (o: Outcome)
    ensures o == Classify(reg, idx, e, urlPath, fetch)
    ensures Url(e) == "" ==> o == Failed(AtIndex(idx, MissingUrl))
    ensures o.Skipped? <==> Url(e) != "" && TemplateId(Url(e), urlPath) != "" && Exists(reg, TemplateId(Url(e), urlPath))
    ensures o.Downloaded? ==> Consulted(reg, e, urlPath) && o.id == TemplateId(Url(e), urlPath)
  {
    var url := Url(e);
    if url == "" {
      return Failed(AtIndex(idx, MissingUrl));
    }
    var id := TemplateId(url, urlPath);
    if id == "" {
      return Failed(AtIndex(idx, NoFilename));
    }
    if Exists(reg, id) {
      return Skipped(id);
    }
    var response := fetch(idx, url);
    o := FetchOutcome(id, response);
  }

  /** The state after one more entry records that entry's classification. */
  lemma ProcessedNext(reg0: Registry, entries: seq<TemplateEntry>, idx: nat, urlPath: string -> string,
                      fetch: (nat, string) -> Attempt)
    requires idx < |entries|
    ensures var s := Processed(reg0, entries, idx, Classification(urlPath, fetch));
            Processed(reg0, entries, idx + 1, Classification(urlPath, fetch))
              == Record(s, Classify(s.registry, idx, entries[idx], urlPath, fetch))
  {
  }

  /** The loop as written: one pass over the entries, in order. */
  method BulkDownloadFromMetadata(reg0: Registry, entries: seq<TemplateEntry>, urlPath: string -> string,
                                  fetch: (nat, string) -> Attempt)
    returns (registry: Registry, report: Report)
    ensures (registry, report) == Sync(reg0, entries, urlPath, fetch)
    ensures |report.downloaded| + |report.skipped| + |report.failed| == report.total == |entries|
    ensures reg0 <= registry
  {
    var s := State(reg0, [], [], []);
    var idx := 0;
    while idx < |entries|
      invariant 0 <= idx <= |entries|
      invariant s == Processed(reg0, entries, idx, Classification(urlPath, fetch))
    {
      var o := ClassifyEntry(s.registry, idx, entries[idx], urlPath, fetch);
      ProcessedNext(reg0, entries, idx, urlPath, fetch);
      s := Record(s, o);
      idx := idx + 1;
    }
    Accounting(reg0, entries, |entries|, Classification(urlPath, fetch));
    registry := s.registry;
    report := Report(s.downloaded, s.skipped, s.failed, |entries|);
  }
}

=== FILE: bulk_laws.dfy ===
/**
 * Properties of the bulk downloader itself: the generic laws of the pass applied
 * to its loop body, together with the facts that depend on how an entry is
 * named and on what the network answers.
 */
module BulkLaws {
  import opened Wrappers
  import opened Sequences
  import opened PosixPath
  import opened Decimal
  import opened TemplateStore
  import opened BulkDownload
  import opened FoldLaws

  // ---------------------------------------------------------------------------
  // The report
  // ---------------------------------------------------------------------------

  /** The three buckets together hold one item per entry, and the total is the number of entries. */
  lemma ReportAccounting(reg0: Registry, entries: seq<TemplateEntry>, urlPath: string -> string,
                         fetch: (nat, string) -> Attempt)
    ensures var r := Sync(reg0, entries, urlPath, fetch).1;
            |r.downloaded| + |r.skipped| + |r.failed| == r.total == |entries|
  {
    Accounting(reg0, entries, |entries|, Classification(urlPath, fetch));
  }

  /** An entry without a URL, or whose URL path has no final segment, is reported failed by index. */
  lemma UnnamedEntriesFailByIndex(reg0: Registry, entries: seq<TemplateEntry>, i: nat,
                                  urlPath: string -> string, fetch: (nat, string) -> Attempt)
    requires i < |entries|
    ensures Url(entries[i]) == "" ==>
              AtIndex(i, MissingUrl) in Sync(reg0, entries, urlPath, fetch).1.failed
    ensures Url(entries[i]) != "" && TemplateId(Url(entries[i]), urlPath) == "" ==>
              AtIndex(i, NoFilename) in Sync(reg0, entries, urlPath, fetch).1.failed
  {
    var cls := Classification(urlPath, fetch);
    OutcomeRecorded(reg0, entries, i, cls);
    ClassifySpec(Processed(reg0, entries, i, cls).registry, i, entries[i], urlPath, fetch);
  }

  /** The returned registry is the starting one plus exactly the names downloaded. */
  lemma RegistryAfterSync(reg0: Registry, entries: seq<TemplateEntry>, urlPath: string -> string,
                          fetch: (nat, string) -> Attempt)
    ensures var (reg, r) := Sync(reg0, entries, urlPath, fetch);
            forall x :: x in reg <==> x in reg0 || x in r.downloaded
  {
    RegistryIsStartPlusDownloaded(reg0, entries, |entries|, Classification(urlPath, fetch));
  }

  /** No name is downloaded twice, and no name known at the start is downloaded at all. */
  lemma DownloadsAreNew(reg0: Registry, entries: seq<TemplateEntry>, urlPath: string -> string,
                        fetch: (nat, string) -> Attempt)
    ensures var d := Sync(reg0, entries, urlPath, fetch).1.downloaded;
            (forall x :: x in d ==> x !in reg0) && Distinct(d)
  {
    ClassificationSound(urlPath, fetch);
    DownloadedDistinct(reg0, entries, |entries|, Classification(urlPath, fetch), Naming(urlPath));
  }

  /** The downloaded and the skipped bucket each list names in the order their entries appear. */
  lemma ReportKeepsEntryOrder(reg0: Registry, entries: seq<TemplateEntry>, urlPath: string -> string,
                              fetch: (nat, string) -> Attempt)
    ensures var r := Sync(reg0, entries, urlPath, fetch).1;
            IsSubsequence(r.downloaded, Names(entries, |entries|, Naming(urlPath)))
            && IsSubsequence(r.skipped, Names(entries, |entries|, Naming(urlPath)))
  {
    ClassificationSound(urlPath, fetch);
    BucketsKeepEntryOrder(reg0, entries, |entries|, Classification(urlPath, fetch), Naming(urlPath));
  }

  // ---------------------------------------------------------------------------
  // Skipping
  // ---------------------------------------------------------------------------

  /** Once a name has been downloaded or skipped, every later entry with that name is skipped. */
  lemma LaterSameIdSkipped(reg0: Registry, entries: seq<TemplateEntry>, i: nat, j: nat,
                           urlPath: string -> string, fetch: (nat, string) -> Attempt)
    requires i < j < |entries|
    requires !OutcomeAt(reg0, entries, i, Classification(urlPath, fetch)).Failed?
    requires Url(entries[j]) != ""
    requires TemplateId(Url(entries[j]), urlPath) == OutcomeAt(reg0, entries, i, Classification(urlPath, fetch)).id
    ensures OutcomeAt(reg0, entries, j, Classification(urlPath, fetch))
      == Skipped(OutcomeAt(reg0, entries, i, Classification(urlPath, fetch)).id)
  {
    ClassificationSound(urlPath, fetch);
    LaterSameNameSkipped(reg0, entries, i, j, Classification(urlPath, fetch), Naming(urlPath));
  }

  /**
   * Re-running over the same entries with the registry the first run left behind
   * skips every entry the first run downloaded or skipped, whatever the network
   * answers the second time.
   */
  lemma RerunSkips(reg0: Registry, entries: seq<TemplateEntry>, i: nat, urlPath: string -> string,
                   f1: (nat, string) -> Attempt, f2: (nat, string) -> Attempt)
    requires i < |entries|
    requires !OutcomeAt(reg0, entries, i, Classification(urlPath, f1)).Failed?
    ensures var reg1 := Sync(reg0, entries, urlPath, f1).0;
            OutcomeAt(reg1, entries, i, Classification(urlPath, f2))
              == Skipped(OutcomeAt(reg0, entries, i, Classification(urlPath, f1)).id)
  {
    ClassificationSound(urlPath, f1);
    ClassificationSound(urlPath, f2);
    SecondPassSkips(reg0, entries, i, Classification(urlPath, f1), Classification(urlPath, f2), Naming(urlPath));
  }

  /** Nothing the first run downloaded is downloaded again by a re-run. */
  lemma RerunDownloadsNothingTwice(reg0: Registry, entries: seq<TemplateEntry>, urlPath: string -> string,
                                   f1: (nat, string) -> Attempt, f2: (nat, string) -> Attempt)
    ensures var first := Sync(reg0, entries, urlPath, f1);
            var second := Sync(first.0, entries, urlPath, f2);
            forall x :: x in first.1.downloaded ==> x !in second.1.downloaded
  {
    var first := Sync(reg0, entries, urlPath, f1);
    RegistryAfterSync(reg0, entries, urlPath, f1);
    DownloadsAreNew(first.0, entries, urlPath, f2);
  }

  /**
   * A re-run that gets the same answers from the network downloads nothing: an entry
   * it would download was downloaded or skipped the first time, so it is now skipped.
   */
  lemma RerunSameNetworkDownloadsNothing(reg0: Registry, entries: seq<TemplateEntry>, urlPath: string -> string,
                                         fetch: (nat, string) -> Attempt)
    ensures Sync(Sync(reg0, entries, urlPath, fetch).0, entries, urlPath, fetch).1.downloaded == []
  {
    var c := Classification(urlPath, fetch);
    var reg1 := Sync(reg0, entries, urlPath, fetch).0;
    var os := Trace(reg1, entries, |entries|, c);
    BucketsFollowTrace(reg1, entries, |entries|, c);
    var d := Sync(reg1, entries, urlPath, fetch).1.downloaded;
    if d != [] {
      var x := d[0];
      var i :| 0 <= i < |os| && os[i] == Downloaded(x);
      var e := entries[i];
      var o1, o2 := OutcomeAt(reg0, entries, i, c), OutcomeAt(reg1, entries, i, c);
      assert o2 == os[i];
      ClassifySpec(Processed(reg1, entries, i, c).registry, i, e, urlPath, fetch);
      ClassifySpec(Processed(reg0, entries, i, c).registry, i, e, urlPath, fetch);
      assert !o1.Failed?;
      RerunSkips(reg0, entries, i, urlPath, fetch, fetch);
      assert false;
    }
  }

  /**
   * At the level of the reports: every name the first run downloaded or skipped
   * is in the skipped bucket of a re-run from the registry the first run left behind.
   */
  lemma RerunReportSkips(reg0: Registry, entries: seq<TemplateEntry>, urlPath: string -> string,
                         f1: (nat, string) -> Attempt, f2: (nat, string) -> Attempt)
    ensures var first := Sync(reg0, entries, urlPath, f1);
            var second := Sync(first.0, entries, urlPath, f2);
            forall x :: x in first.1.downloaded || x in first.1.skipped ==> x in second.1.skipped
  {
    var c1, c2 := Classification(urlPath, f1), Classification(urlPath, f2);
    var first := Sync(reg0, entries, urlPath, f1);
    var reg1 := first.0;
    var os := Trace(reg0, entries, |entries|, c1);
    BucketsFollowTrace(reg0, entries, |entries|, c1);
    forall x | x in first.1.downloaded || x in first.1.skipped
      ensures x in Sync(reg1, entries, urlPath, f2).1.skipped
    {
      var i :| 0 <= i < |os| && (os[i] == Downloaded(x) || os[i] == Skipped(x));
      assert OutcomeAt(reg0, entries, i, c1) == os[i];
      RerunSkips(reg0, entries, i, urlPath, f1, f2);
      OutcomeRecorded(reg1, entries, i, c2);
    }
  }

  // ---------------------------------------------------------------------------
  // The network is consulted only for new names
  // ---------------------------------------------------------------------------

  /** Two answerers give the same answer to the request an entry makes, if it makes one. */
  ghost predicate AgreesOn(reg: Registry, i: nat, e: TemplateEntry, urlPath: string -> string,
                           f1: (nat, string) -> Attempt, f2: (nat, string) -> Attempt)
  {
    Consulted(reg, e, urlPath) ==> f1(i, Url(e)) == f2(i, Url(e))
  }

  /** One entry is classified alike by two answerers that agree on its request. */
  lemma ClassifyAgrees(reg: Registry, i: nat, e: TemplateEntry, urlPath: string -> string,
                       f1: (nat, string) -> Attempt, f2: (nat, string) -> Attempt)
    requires AgreesOn(reg, i, e, urlPath, f1, f2)
    ensures Classify(reg, i, e, urlPath, f1) == Classify(reg, i, e, urlPath, f2)
  {
  }

  /** Two answerers agree on the request entry `i` makes during the run with the first. */
  ghost predicate RequestAgrees(reg0: Registry, entries: seq<TemplateEntry>, i: nat, urlPath: string -> string,
                                f1: (nat, string) -> Attempt, f2: (nat, string) -> Attempt)
    requires i < |entries|
  {
    AgreesOn(Processed(reg0, entries, i, Classification(urlPath, f1)).registry, i, entries[i], urlPath, f1, f2)
  }

  /**
   * A run depends on the network only through the requests it makes: entries that
   * are skipped or fail before a request is made never reach it.
   */
  lemma RunDependsOnlyOnRequests(reg0: Registry, entries: seq<TemplateEntry>, urlPath: string -> string,
                                 f1: (nat, string) -> Attempt, f2: (nat, string) -> Attempt)
    requires forall i :: 0 <= i < |entries| ==> RequestAgrees(reg0, entries, i, urlPath, f1, f2)
    ensures Sync(reg0, entries, urlPath, f1) == Sync(reg0, entries, urlPath, f2)
  {
    var c1, c2 := Classification(urlPath, f1), Classification(urlPath, f2);
    forall i | 0 <= i < |entries|
      ensures AgreeAt(reg0, entries, i, c1, c2)
    {
      assert RequestAgrees(reg0, entries, i, urlPath, f1, f2);
      ClassifyAgrees(Processed(reg0, entries, i, c1).registry, i, entries[i], urlPath, f1, f2);
    }
    PassDependsOnlyOnVisited(reg0, entries, |entries|, c1, c2);
  }

  /** A skipped entry makes no request, so its outcome is the same whatever the network would answer. */
  lemma SkipIgnoresFetch(reg: Registry, i: nat, e: TemplateEntry, urlPath: string -> string,
                         f1: (nat, string) -> Attempt, f2: (nat, string) -> Attempt)
    requires Classify(reg, i, e, urlPath, f1).Skipped?
    ensures !Consulted(reg, e, urlPath)
    ensures Classify(reg, i, e, urlPath, f2) == Classify(reg, i, e, urlPath, f1)
  {
    ClassifySpec(reg, i, e, urlPath, f1);
  }

  // ---------------------------------------------------------------------------
  // Reasons and names
  // ---------------------------------------------------------------------------

  /** The HTTP failure reason carries the status code in decimal after "HTTP ". */
  lemma HttpReasonCarriesStatus(status: int)
    ensures HttpReason(status) == "HTTP " + IntToString(status)
    ensures ParseInt(HttpReason(status)[5..]) == status
  {
    assert HttpReason(status)[5..] == IntToString(status);
    ParseIntToString(status);
  }

  /** The template name is the last path segment. */
  lemma NameIsLastSegment()
    ensures Basename("/templates/t_42") == "t_42"
  {
    RFindIs("/templates/t_42", '/', 10);
    assert "/templates/t_42"[11..] == "t_42";
  }

  /** The URL of the example below has a path ending in a slash, which names no template. */
  lemma TrailingSlashExample(reg: Registry, fetch: (nat, string) -> Attempt)
    ensures Classify(reg, 7, TemplateEntry(Some("https://cdn.example/templates/")), u => "/templates/", fetch)
      == Failed(AtIndex(7, NoFilename))
  {
    TrailingSlashFails(reg, 7, TemplateEntry(Some("https://cdn.example/templates/")), u => "/templates/", fetch);
  }

  /** Any entry whose URL path ends in a slash fails with "Cannot extract filename" at its index. */
  lemma TrailingSlashFails(reg: Registry, i: nat, e: TemplateEntry, urlPath: string -> string,
                           fetch: (nat, string) -> Attempt)
    requires Url(e) != ""
    requires |urlPath(Url(e))| > 0 && urlPath(Url(e))[|urlPath(Url(e))| - 1] == '/'
    ensures Classify(reg, i, e, urlPath, fetch) == Failed(AtIndex(i, NoFilename))
  {
    var path := urlPath(Url(e));
    RFindIs(path, '/', |path| - 1);
  }

  /** An entry without a URL, or with an empty one, fails with "Missing template_url" at its index. */
  lemma MissingUrlFails(reg: Registry, i: nat, urlPath: string -> string, fetch: (nat, string) -> Attempt)
    ensures Classify(reg, i, TemplateEntry(None), urlPath, fetch) == Failed(AtIndex(i, MissingUrl))
    ensures Classify(reg, i, TemplateEntry(Some("")), urlPath, fetch) == Failed(AtIndex(i, MissingUrl))
  {
  }
}

=== FILE: decimal.dfy ===
/** Python's `str(n)` for integers, used to render an HTTP status code. */
module Decimal {

  predicate IsDigit(c: char) {
    '0' <= c <= '9'
  }

  function DigitChar(d: nat): (c: char)
    requires d < 10
    ensures IsDigit(c) && c as int - '0' as int == d
  {
    (d + '0' as int) as char
  }

  /** The decimal numeral of `n`: digits only, without leading zeros. */
  function NatToString(n: nat): (s: string)
    ensures |s| >= 1
    ensures forall k :: 0 <= k < |s| ==> IsDigit(s[k])
    ensures s[0] == '0' ==> n == 0 && s == "0"
    decreases n
  {
    if n < 10 then [DigitChar(n)] else NatToString(n / 10) + [DigitChar(n % 10)]
  }

  /** `str(i)`: a minus sign before the digits of a negative number. */
  function IntToString(i: int): (s: string)
    ensures |s| >= 1
    ensures i >= 0 ==> IsDigit(s[0])
    ensures i < 0 ==> s[0] == '-'
  {
    if i < 0 then "-" + NatToString(-i) else NatToString(i)
  }

  /** Reads back a string of digits. */
  function ParseNat(s: string): nat
    requires forall k :: 0 <= k < |s| ==> IsDigit(s[k])
    decreases |s|
  {
    if s == [] then 0
    else
      assert IsDigit(s[|s| - 1]);
      ParseNat(s[..|s| - 1]) * 10 + (s[|s| - 1] as int - '0' as int)
  }

  /** Reads back `str(i)`. */
  function ParseInt(s: string): int
    requires |s| >= 1
    requires s[0] == '-' || IsDigit(s[0])
    requires forall k :: 1 <= k < |s| ==> IsDigit(s[k])
  {
    if s[0] == '-' then 0 - ParseNat(s[1..]) else ParseNat(s)
  }

  /** The numeral of `n` reads back as `n`. */
  lemma {:induction false} ParseNatToString(n: nat)
    ensures ParseNat(NatToString(n)) == n
    decreases n
  {
    if n >= 10 {
      var s := NatToString(n);
      ParseNatToString(n / 10);
      assert s[..|s| - 1] == NatToString(n / 10);
    }
  }

  /** Distinct status codes render as distinct strings: `str` is injective. */
  lemma ParseIntToString(i: int)
    ensures ParseInt(IntToString(i)) == i
  {
    var s := IntToString(i);
    if i < 0 {
      assert s[1..] == NatToString(-i);
      ParseNatToString(-i);
    } else {
      ParseNatToString(i);
    }
  }
}

=== FILE: fold_laws.dfy ===
/**
 * Laws of the bulk pass that hold for any per-entry classifier: accounting, the
 * growth of the registry, the buckets as in-order views of the outcomes, and,
 * for classifiers of the downloader's shape (`Sound`), distinct downloads,
 * skipping of known names and the order of the buckets.
 */
module FoldLaws {
  import opened Sequences
  import opened TemplateStore
  import opened BulkDownload

  // ---------------------------------------------------------------------------
  // Small facts about one step
  // ---------------------------------------------------------------------------

  /** Processing one more entry records exactly that entry's outcome. */
  lemma RunStep(reg0: Registry, entries: seq<TemplateEntry>, n: nat, cls: Classifier)
    requires 0 < n <= |entries|
    ensures Processed(reg0, entries, n, cls)
      == Record(Processed(reg0, entries, n - 1, cls), OutcomeAt(reg0, entries, n - 1, cls))
  {
  }

  /** Recording an outcome appends it to its own bucket and leaves the other two alone. */
  lemma RecordBuckets(s: State, o: Outcome)
    ensures Record(s, o).registry == if o.Downloaded? then s.registry + {o.id} else s.registry
    ensures Record(s, o).downloaded == s.downloaded + (if o.Downloaded? then [o.id] else [])
    ensures Record(s, o).skipped == s.skipped + (if o.Skipped? then [o.id] else [])
    ensures Record(s, o).failed == s.failed + (if o.Failed? then [o.failure] else [])
  {
  }

  lemma SubsetTransitive<T>(a: set<T>, b: set<T>, c: set<T>)
    requires a <= b && b <= c
    ensures a <= c
  {
  }

  // ---------------------------------------------------------------------------
  // The registry
  // ---------------------------------------------------------------------------

  /** The registry only grows as the run proceeds. */
  lemma {:induction false} RegistryGrows(reg0: Registry, entries: seq<TemplateEntry>, i: nat, j: nat, cls: Classifier)
    requires i <= j <= |entries|
    ensures Processed(reg0, entries, i, cls).registry <= Processed(reg0, entries, j, cls).registry
    decreases j
  {
    if i < j {
      RegistryGrows(reg0, entries, i, j - 1, cls);
      var b := Processed(reg0, entries, j - 1, cls);
      RunStep(reg0, entries, j, cls);
      RecordBuckets(b, OutcomeAt(reg0, entries, j - 1, cls));
      SubsetTransitive(Processed(reg0, entries, i, cls).registry, b.registry, Processed(reg0, entries, j, cls).registry);
    }
  }

  /** The registry holds exactly the starting names and the names downloaded so far. */
  lemma {:induction false} RegistryIsStartPlusDownloaded(reg0: Registry, entries: seq<TemplateEntry>, n: nat,
                                                         cls: Classifier)
    requires n <= |entries|
    ensures var s := Processed(reg0, entries, n, cls);
            forall x :: x in s.registry <==> x in reg0 || x in s.downloaded
  {
    if n > 0 {
      RegistryIsStartPlusDownloaded(reg0, entries, n - 1, cls);
      RunStep(reg0, entries, n, cls);
      RecordBuckets(Processed(reg0, entries, n - 1, cls), OutcomeAt(reg0, entries, n - 1, cls));
    }
  }

  /** A name that has been downloaded or skipped is in the registry right after its entry. */
  lemma NameRegisteredAtNext(reg0: Registry, entries: seq<TemplateEntry>, i: nat, cls: Classifier,
                             name: TemplateEntry -> string)
    requires Sound(cls, name)
    requires i < |entries|
    requires !OutcomeAt(reg0, entries, i, cls).Failed?
    ensures OutcomeAt(reg0, entries, i, cls).id in Processed(reg0, entries, i + 1, cls).registry
  {
    var before := Processed(reg0, entries, i, cls);
    RunStep(reg0, entries, i + 1, cls);
    RecordBuckets(before, OutcomeAt(reg0, entries, i, cls));
  }

  /** A name that has been downloaded or skipped is in the registry from then on. */
  lemma NameRegisteredAfter(reg0: Registry, entries: seq<TemplateEntry>, i: nat, j: nat, cls: Classifier,
                            name: TemplateEntry -> string)
    requires Sound(cls, name)
    requires i < j <= |entries|
    requires !OutcomeAt(reg0, entries, i, cls).Failed?
    ensures OutcomeAt(reg0, entries, i, cls).id in Processed(reg0, entries, j, cls).registry
  {
    NameRegisteredAtNext(reg0, entries, i, cls, name);
    RegistryGrows(reg0, entries, i + 1, j, cls);
  }

  /** Once a name has been downloaded or skipped, every later entry of that name is skipped. */
  lemma LaterSameNameSkipped(reg0: Registry, entries: seq<TemplateEntry>, i: nat, j: nat, cls: Classifier,
                             name: TemplateEntry -> string)
    requires Sound(cls, name)
    requires i < j < |entries|
    requires !OutcomeAt(reg0, entries, i, cls).Failed?
    requires name(entries[j]) == OutcomeAt(reg0, entries, i, cls).id
    ensures OutcomeAt(reg0, entries, j, cls) == Skipped(OutcomeAt(reg0, entries, i, cls).id)
  {
    NameRegisteredAfter(reg0, entries, i, j, cls, name);
  }

  /**
   * A second pass started from the registry the first pass left behind skips every
   * entry the first pass downloaded or skipped.
   */
  lemma SecondPassSkips(reg0: Registry, entries: seq<TemplateEntry>, i: nat, c1: Classifier, c2: Classifier,
                        name: TemplateEntry -> string)
    requires Sound(c1, name) && Sound(c2, name)
    requires i < |entries|
    requires !OutcomeAt(reg0, entries, i, c1).Failed?
    ensures var reg1 := Processed(reg0, entries, |entries|, c1).registry;
            OutcomeAt(reg1, entries, i, c2) == Skipped(OutcomeAt(reg0, entries, i, c1).id)
  {
    NameRegisteredAfter(reg0, entries, i, |entries|, c1, name);
  }

  // ---------------------------------------------------------------------------
  // Buckets
  // ---------------------------------------------------------------------------

  /** The outcomes of the first `n` entries, in loop order. */
  function Trace(reg0: Registry, entries: seq<TemplateEntry>, n: nat, cls: Classifier): (os: seq<Outcome>)
    requires n <= |entries|
    ensures |os| == n
  {
    seq(n, i requires 0 <= i < n => OutcomeAt(reg0, entries, i, cls))
  }

  /** One more entry adds its outcome at the end of the trace. */
  lemma TraceStep(reg0: Registry, entries: seq<TemplateEntry>, n: nat, cls: Classifier)
    requires 0 < n <= |entries|
    ensures Trace(reg0, entries, n, cls) == Trace(reg0, entries, n - 1, cls) + [OutcomeAt(reg0, entries, n - 1, cls)]
  {
  }

  /** The names of the downloaded outcomes, in order. */
  function DownloadedOf(os: seq<Outcome>): (ids: seq<string>)
    ensures forall x :: x in ids <==> Downloaded(x) in os
  {
    if os == [] then []
    else
      var last := os[|os| - 1];
      assert os == os[..|os| - 1] + [last];
      DownloadedOf(os[..|os| - 1]) + (if last.Downloaded? then [last.id] else [])
  }

  /** The names of the skipped outcomes, in order. */
  function SkippedOf(os: seq<Outcome>): (ids: seq<string>)
    ensures forall x :: x in ids <==> Skipped(x) in os
  {
    if os == [] then []
    else
      var last := os[|os| - 1];
      assert os == os[..|os| - 1] + [last];
      SkippedOf(os[..|os| - 1]) + (if last.Skipped? then [last.id] else [])
  }

  /** The failures, in order. */
  function FailedOf(os: seq<Outcome>): (fs: seq<Failure>)
    ensures forall f :: f in fs <==> Failed(f) in os
  {
    if os == [] then []
    else
      var last := os[|os| - 1];
      assert os == os[..|os| - 1] + [last];
      FailedOf(os[..|os| - 1]) + (if last.Failed? then [last.failure] else [])
  }

  /** Recording the next outcome keeps the buckets equal to the bucket lists of the longer trace. */
  lemma StepBuckets(prev: State, o: Outcome, before: seq<Outcome>)
    requires prev.downloaded == DownloadedOf(before)
    requires prev.skipped == SkippedOf(before)
    requires prev.failed == FailedOf(before)
    ensures Record(prev, o).downloaded == DownloadedOf(before + [o])
    ensures Record(prev, o).skipped == SkippedOf(before + [o])
    ensures Record(prev, o).failed == FailedOf(before + [o])
  {
    RecordBuckets(prev, o);
    assert (before + [o])[..|before|] == before;
  }

  /**
   * Each bucket is the in-order list of the outcomes of its kind: an entry is
   * appended to the bucket its outcome names, and to no other.
   */
  lemma {:induction false} BucketsFollowTrace(reg0: Registry, entries: seq<TemplateEntry>, n: nat, cls: Classifier)
    requires n <= |entries|
    ensures var s, os := Processed(reg0, entries, n, cls), Trace(reg0, entries, n, cls);
            s.downloaded == DownloadedOf(os) && s.skipped == SkippedOf(os) && s.failed == FailedOf(os)
  {
    if n > 0 {
      BucketsFollowTrace(reg0, entries, n - 1, cls);
      TraceStep(reg0, entries, n, cls);
      RunStep(reg0, entries, n, cls);
      StepBuckets(Processed(reg0, entries, n - 1, cls), OutcomeAt(reg0, entries, n - 1, cls),
                  Trace(reg0, entries, n - 1, cls));
    }
  }

  /** At the end of the pass, every entry's outcome sits in the matching bucket. */
  lemma OutcomeRecorded(reg0: Registry, entries: seq<TemplateEntry>, i: nat, cls: Classifier)
    requires i < |entries|
    ensures var o, s := OutcomeAt(reg0, entries, i, cls), Processed(reg0, entries, |entries|, cls);
            (o.Downloaded? ==> o.id in s.downloaded)
            && (o.Skipped? ==> o.id in s.skipped)
            && (o.Failed? ==> o.failure in s.failed)
  {
    BucketsFollowTrace(reg0, entries, |entries|, cls);
    assert Trace(reg0, entries, |entries|, cls)[i] == OutcomeAt(reg0, entries, i, cls);
  }

  // ---------------------------------------------------------------------------
  // Downloads
  // ---------------------------------------------------------------------------

  /** No element occurs twice. */
  predicate Distinct<T(==)>(d: seq<T>)
  {
    forall a, b :: 0 <= a < b < |d| ==> d[a] != d[b]
  }

  /** Appending a new element keeps a sequence free of repetitions. */
  lemma AppendFresh<T>(d: seq<T>, x: T)
    requires Distinct(d) && x !in d
    ensures Distinct(d + [x])
  {
  }

  /** A download appends a name that is neither registered at the start nor downloaded before. */
  lemma DownloadStep(reg0: Registry, prev: State, o: Outcome, s: State)
    requires forall x :: x in prev.registry <==> x in reg0 || x in prev.downloaded
    requires (forall x :: x in prev.downloaded ==> x !in reg0) && Distinct(prev.downloaded)
    requires o.Downloaded? ==> o.id !in prev.registry
    requires s == Record(prev, o)
    ensures (forall x :: x in s.downloaded ==> x !in reg0) && Distinct(s.downloaded)
  {
    RecordBuckets(prev, o);
    if o.Downloaded? {
      AppendFresh(prev.downloaded, o.id);
    } else {
      assert s.downloaded == prev.downloaded;
    }
  }

  /** No name is downloaded twice in one pass, and no downloaded name was registered at the start. */
  lemma {:induction false} DownloadedDistinct(reg0: Registry, entries: seq<TemplateEntry>, n: nat, cls: Classifier,
                                              name: TemplateEntry -> string)
    requires Sound(cls, name)
    requires n <= |entries|
    ensures var d := Processed(reg0, entries, n, cls).downloaded;
            (forall x :: x in d ==> x !in reg0) && Distinct(d)
  {
    if n > 0 {
      DownloadedDistinct(reg0, entries, n - 1, cls, name);
      RegistryIsStartPlusDownloaded(reg0, entries, n - 1, cls);
      RunStep(reg0, entries, n, cls);
      DownloadStep(reg0, Processed(reg0, entries, n - 1, cls), OutcomeAt(reg0, entries, n - 1, cls),
                   Processed(reg0, entries, n, cls));
    }
  }

  // ---------------------------------------------------------------------------
  // Dependence on the classifier
  // ---------------------------------------------------------------------------

  /** Two classifiers classify entry `i` alike, at the registry the first one meets there. */
  ghost predicate AgreeAt(reg0: Registry, entries: seq<TemplateEntry>, i: nat, c1: Classifier, c2: Classifier)
    requires i < |entries|
  {
    var reg := Processed(reg0, entries, i, c1).registry;
    c1(reg, i, entries[i]) == c2(reg, i, entries[i])
  }

  /** Two classifiers agree on every entry of the first `n`. */
  ghost predicate AgreeAlong(reg0: Registry, entries: seq<TemplateEntry>, n: nat, c1: Classifier, c2: Classifier)
    requires n <= |entries|
  {
    forall i :: 0 <= i < n ==> AgreeAt(reg0, entries, i, c1, c2)
  }

  /** Two classifiers that agree on the next entry, from equal states, reach equal states. */
  lemma AgreeStep(reg0: Registry, entries: seq<TemplateEntry>, n: nat, c1: Classifier, c2: Classifier)
    requires 0 < n <= |entries|
    requires AgreeAt(reg0, entries, n - 1, c1, c2)
    requires Processed(reg0, entries, n - 1, c1) == Processed(reg0, entries, n - 1, c2)
    ensures Processed(reg0, entries, n, c1) == Processed(reg0, entries, n, c2)
  {
  }

  /** A pass depends on its classifier only at the registries it actually meets. */
  lemma {:induction false} PassDependsOnlyOnVisited(reg0: Registry, entries: seq<TemplateEntry>, n: nat,
                                                    c1: Classifier, c2: Classifier)
    requires n <= |entries|
    requires AgreeAlong(reg0, entries, n, c1, c2)
    ensures Processed(reg0, entries, n, c1) == Processed(reg0, entries, n, c2)
  {
    if n > 0 {
      assert AgreeAt(reg0, entries, n - 1, c1, c2);
      PassDependsOnlyOnVisited(reg0, entries, n - 1, c1, c2);
      AgreeStep(reg0, entries, n, c1, c2);
    }
  }

  // ---------------------------------------------------------------------------
  // Order
  // ---------------------------------------------------------------------------

  /** The names of the first `n` entries that have one, in order. */
  function Names(entries: seq<TemplateEntry>, n: nat, name: TemplateEntry -> string): seq<string>
    requires n <= |entries|
  {
    if n == 0 then []
    else
      Names(entries, n - 1, name) + (if name(entries[n - 1]) != "" then [name(entries[n - 1])] else [])
  }

  /** Extending the larger sequence, and the smaller only when the larger was, keeps a subsequence. */
  lemma OrderStep<T>(a: seq<T>, b: seq<T>, x: T, took: bool, named: bool)
    requires IsSubsequence(a, b)
    requires took ==> named
    ensures IsSubsequence(a + (if took then [x] else []), b + (if named then [x] else []))
  {
    if took {
      SubsequenceExtendBoth(a, b, x);
    } else if named {
      SubsequenceExtend(a, b, x);
      assert a + [] == a;
    } else {
      assert a + [] == a && b + [] == b;
    }
  }

  /** The downloaded and the skipped bucket each list names in the order their entries appear. */
  lemma {:induction false} BucketsKeepEntryOrder(reg0: Registry, entries: seq<TemplateEntry>, n: nat, cls: Classifier,
                                                 name: TemplateEntry -> string)
    requires Sound(cls, name)
    requires n <= |entries|
    ensures IsSubsequence(Processed(reg0, entries, n, cls).downloaded, Names(entries, n, name))
    ensures IsSubsequence(Processed(reg0, entries, n, cls).skipped, Names(entries, n, name))
  {
    if n > 0 {
      BucketsKeepEntryOrder(reg0, entries, n - 1, cls, name);
      var prev := Processed(reg0, entries, n - 1, cls);
      var o := OutcomeAt(reg0, entries, n - 1, cls);
      var x := name(entries[n - 1]);
      RunStep(reg0, entries, n, cls);
      RecordBuckets(prev, o);
      OrderStep(prev.downloaded, Names(entries, n - 1, name), x, o.Downloaded?, x != "");
      OrderStep(prev.skipped, Names(entries, n - 1, name), x, o.Skipped?, x != "");
    }
  }
}

=== FILE: posixpath.dfy ===
/** The `os.path` functions the converter and the downloader use, with
    POSIX semantics: only `/` separates path components. */
module PosixPath {

  /** `s.rfind(c)`: the index of the last `c` in `s`, or -1 when there is none. */
  function RFind(s: string, c: char): (r: int)
    ensures -1 <= r < |s|
    ensures r >= 0 ==> s[r] == c
    ensures forall k :: r < k < |s| ==> s[k] != c
    decreases |s|
  {
    if s == [] then -1
    else if s[|s| - 1] == c then |s| - 1
    else RFind(s[..|s| - 1], c)
  }

  /** `os.path.basename(p)`: the longest suffix of `p` without a `/`. */
  function Basename(p: string): (r: string)
    ensures |r| <= |p| && r == p[|p| - |r|..]
    ensures forall k :: 0 <= k < |r| ==> r[k] != '/'
    ensures |r| < |p| ==> p[|p| - |r| - 1] == '/'
  {
    var sep := RFind(p, '/');
    var r := p[sep + 1..];
    assert |p| - |r| == sep + 1;
    r
  }

  /** `os.path.splitext(p)[0]`: `p` without its extension. The extension is the
      text from the last `.` of the final component, provided some character
      other than `.` precedes that dot within the component; so `.bashrc` and
      `..x` have no extension while `a.tar.gz` has `.gz`. */
  function SplitExtRoot(p: string): string
  {
    var sep := RFind(p, '/');
    var dot := RFind(p, '.');
    if dot > sep && !DotsOnly(p, sep + 1, dot) then
      p[..dot]
    else
      p
  }

  /** The root is a prefix of `p`; what it cuts off is a dot followed by neither a
      dot nor a `/`, preceded in the final component by some non-dot; and when
      nothing is cut, every dot of the final component has only dots before it. */
  lemma SplitExtRootSpec(p: string)
    ensures var r := SplitExtRoot(p);
            |r| <= |p| && r == p[..|r|]
            && (r != p ==> p[|r|] == '.')
            && (r != p ==> forall k :: |r| < k < |p| ==> p[k] != '.' && p[k] != '/')
            && (r != p ==> exists k :: RFind(p, '/') < k < |r| && p[k] != '.')
            && (r == p ==> forall k :: RFind(p, '/') < k < |p| && p[k] == '.' ==> DotsOnly(p, RFind(p, '/') + 1, k))
  {
    var sep := RFind(p, '/');
    var dot := RFind(p, '.');
    if dot > sep && !DotsOnly(p, sep + 1, dot) {
      var k :| sep + 1 <= k < dot && p[k] != '.';
    }
  }

  /** Every character of `p[lo..hi]` is a dot. */
  predicate DotsOnly(p: string, lo: int, hi: int)
    requires 0 <= lo && hi <= |p|
  {
    forall m :: lo <= m < hi ==> p[m] == '.'
  }

  /** `splitext(basename(p))[0]`: the file name of `p` without its extension. */
  function Stem(p: string): string
  {
    SplitExtRoot(Basename(p))
  }

  /** The stem is a prefix of the base name and so contains no `/`. */
  lemma StemSpec(p: string)
    ensures |Stem(p)| <= |Basename(p)| && Stem(p) == Basename(p)[..|Stem(p)|]
    ensures forall k :: 0 <= k < |Stem(p)| ==> Stem(p)[k] != '/'
  {
    SplitExtRootSpec(Basename(p));
  }

  /** A name whose only dot is the leading one has no extension. */
  lemma LeadingDotIsNotExtension(name: string)
    requires |name| > 0 && name[0] == '.'
    requires forall k :: 0 < k < |name| ==> name[k] != '.' && name[k] != '/'
    ensures SplitExtRoot(name) == name
  {
  }

  /** `RFind` is pinned down by a witness: the last occurrence of `c`. */
  lemma RFindIs(s: string, c: char, i: int)
    requires -1 <= i < |s|
    requires i >= 0 ==> s[i] == c
    requires forall k :: i < k < |s| ==> s[k] != c
    ensures RFind(s, c) == i
  {
  }

  /** The stem of a path whose final component has an extension: the text between
      the last `/` and the last `.`. */
  lemma StemIs(p: string, sep: int, dot: int, k: int)
    requires -1 <= sep < k < dot < |p|
    requires sep >= 0 ==> p[sep] == '/'
    requires forall m :: sep < m < |p| ==> p[m] != '/'
    requires p[dot] == '.' && forall m :: dot < m < |p| ==> p[m] != '.'
    requires p[k] != '.'
    ensures Stem(p) == p[sep + 1..dot]
  {
    RFindIs(p, '/', sep);
    var b := p[sep + 1..];
    assert Basename(p) == b;
    SplitExtRootIs(b, dot - sep - 1, k - sep - 1);
    assert b[..dot - sep - 1] == p[sep + 1..dot];
  }

  /** The root of a name without `/` whose last dot, at `dot`, follows a non-dot at `k`. */
  lemma SplitExtRootIs(b: string, dot: int, k: int)
    requires 0 <= k < dot < |b|
    requires forall m :: 0 <= m < |b| ==> b[m] != '/'
    requires b[dot] == '.' && forall m :: dot < m < |b| ==> b[m] != '.'
    requires b[k] != '.'
    ensures SplitExtRoot(b) == b[..dot]
  {
    RFindIs(b, '/', -1);
    RFindIs(b, '.', dot);
    assert !DotsOnly(b, 0, dot);
  }

  /** Only the last dot starts the extension, and only the final component counts. */
  lemma StemOfCover()
    ensures Stem("video/cover/clip1.jpg") == "clip1"
  {
    var p := "video/cover/clip1.jpg";
    StemIs(p, 11, 17, 12);
  }

  lemma StemOfDoubleExtension()
    ensures Stem("a.tar.gz") == "a.tar"
  {
    var p := "a.tar.gz";
    StemIs(p, -1, 5, 0);
  }

  lemma StemOfHiddenFile()
    ensures Stem("dir/.hidden") == ".hidden"
  {
    var p := "dir/.hidden";
    RFindIs(p, '/', 3);
    var b := Basename(p);
    assert b == ".hidden";
    LeadingDotIsNotExtension(b);
  }
}

=== FILE: pystr.dfy ===
/** The Python `str` methods the converter relies on: `replace`, `in`,
    `startswith` and `strip`. */
module PyStr {

  /** `s.startswith(prefix)`. */
  predicate StartsWith(s: string, prefix: string) {
    |prefix| <= |s| && s[..|prefix|] == prefix
  }

  /** `sub` occurs in `s` starting at index `i`. */
  predicate OccursAt(s: string, sub: string, i: int) {
    0 <= i && i + |sub| <= |s| && s[i..i + |sub|] == sub
  }

  /** `sub in s`: true exactly when `sub` occurs somewhere in `s`. */
  function Contains(s: string, sub: string): (found: bool)
    ensures found <==> exists i :: OccursAt(s, sub, i)
    decreases |s|
  {
    if StartsWith(s, sub) then
      assert OccursAt(s, sub, 0);
      true
    else if s == [] then
      false
    else
      var rest := Contains(s[1..], sub);
      if rest then
        var i :| OccursAt(s[1..], sub, i);
        assert OccursAt(s, sub, i + 1) by {
          SliceOfTail(s, i + 1, |sub|);
        }
        true
      else
        assert forall i :: OccursAt(s, sub, i) ==> OccursAt(s[1..], sub, i - 1) by {
          forall i | OccursAt(s, sub, i)
            ensures OccursAt(s[1..], sub, i - 1)
          {
            assert i > 0;
            SliceOfTail(s, i, |sub|);
          }
        }
        false
  }

  /** A slice of `s` that starts after its first character is a slice of `s[1..]`. */
  lemma SliceOfTail(s: string, i: int, len: nat)
    requires 1 <= i && i + len <= |s|
    ensures s[i..i + len] == s[1..][i - 1..i - 1 + len]
  {
    var a, b := s[i..i + len], s[1..][i - 1..i - 1 + len];
    forall k | 0 <= k < len
      ensures a[k] == b[k]
    {
      assert s[1..][i - 1 + k] == s[i + k];
    }
  }

  /** `s.replace("\\", "/")`: every backslash read as a forward slash. */
  function NormalizeSlashes(s: string): (r: string)
    ensures |r| == |s|
    ensures forall i :: 0 <= i < |s| && s[i] != '\\' ==> r[i] == s[i]
    ensures forall i :: 0 <= i < |s| && s[i] == '\\' ==> r[i] == '/'
    decreases |s|
  {
    if s == [] then []
    else
      var c := s[|s| - 1];
      NormalizeSlashes(s[..|s| - 1]) + [if c == '\\' then '/' else c]
  }

  /** A path without backslashes is left alone. */
  lemma NormalizeWithoutBackslash(s: string)
    requires '\\' !in s
    ensures NormalizeSlashes(s) == s
  {
  }

  /** Replacing backslashes is pointwise: `t` is the result when it agrees with
      `s` everywhere except where `s` has a backslash and `t` a slash. */
  lemma NormalizeIs(s: string, t: string)
    requires |s| == |t|
    requires forall i :: 0 <= i < |s| ==> (if s[i] == '\\' then t[i] == '/' else t[i] == s[i])
    ensures NormalizeSlashes(s) == t
  {
  }

  /** A character removed by `strip("[]")`. */
  predicate IsBracket(c: char) {
    c == '[' || c == ']'
  }

  predicate AllBrackets(s: string) {
    forall k :: 0 <= k < |s| ==> IsBracket(s[k])
  }

  /** Removes every leading bracket. */
  function StripLeading(s: string): string
    decreases |s|
  {
    if s != [] && IsBracket(s[0]) then StripLeading(s[1..]) else s
  }

  /** Removes every trailing bracket. */
  function StripTrailing(s: string): string
    decreases |s|
  {
    if s != [] && IsBracket(s[|s| - 1]) then StripTrailing(s[..|s| - 1]) else s
  }

  /** `r` is `s` after a run of brackets, and does not start with one. */
  predicate LeadingCut(s: string, r: string) {
    && |r| <= |s| && r == s[|s| - |r|..]
    && AllBrackets(s[..|s| - |r|])
    && (r == [] || !IsBracket(r[0]))
  }

  /** `r` is `s` before a run of brackets, and does not end with one. */
  predicate TrailingCut(s: string, r: string) {
    && |r| <= |s| && r == s[..|r|]
    && AllBrackets(s[|r|..])
    && (r == [] || !IsBracket(r[|r| - 1]))
  }

  /** `StripLeading` cuts a run of brackets off the front and stops at a non-bracket. */
  lemma {:induction false} StripLeadingSpec(s: string)
    ensures LeadingCut(s, StripLeading(s))
    decreases |s|
  {
    if s != [] && IsBracket(s[0]) {
      var tail := s[1..];
      var r := StripLeading(tail);
      assert StripLeading(s) == r;
      StripLeadingSpec(tail);
      var m := |tail| - |r|;
      assert s[|s| - |r|..] == tail[m..];
      var cut, tailCut := s[..m + 1], tail[..m];
      assert AllBrackets(tailCut);
      forall k | 0 <= k < m + 1
        ensures IsBracket(cut[k])
      {
        if k > 0 {
          assert cut[k] == tailCut[k - 1];
        }
      }
    } else {
      assert StripLeading(s) == s;
      assert s[|s| - |s|..] == s;
    }
  }

  /** `StripTrailing` cuts a run of brackets off the back and stops at a non-bracket. */
  lemma {:induction false} StripTrailingSpec(s: string)
    ensures TrailingCut(s, StripTrailing(s))
    decreases |s|
  {
    if s != [] && IsBracket(s[|s| - 1]) {
      var r := StripTrailing(s[..|s| - 1]);
      assert StripTrailing(s) == r;
      StripTrailingSpec(s[..|s| - 1]);
      assert s[|r|..] == s[..|s| - 1][|r|..] + [s[|s| - 1]];
    } else {
      assert StripTrailing(s) == s;
      assert s[..|s|] == s;
    }
  }

  /** `r` is `s` with the bracket runs at both ends cut off: the middle slice
      `s[i..j]`, everything outside it is a bracket, and it neither starts nor
      ends with one. */
  ghost predicate IsBracketTrim(s: string, r: string) {
    exists i, j :: TrimBounds(s, r, i, j)
  }

  ghost predicate TrimBounds(s: string, r: string, i: int, j: int) {
    && 0 <= i <= j <= |s|
    && r == s[i..j]
    && AllBrackets(s[..i])
    && AllBrackets(s[j..])
    && (r == [] || (!IsBracket(r[0]) && !IsBracket(r[|r| - 1])))
  }

  /** `s.strip("[]")`: removes ALL leading and trailing `[` and `]` characters. */
  function StripBrackets(s: string): string {
    StripTrailing(StripLeading(s))
  }

  /** What `strip("[]")` returns is the bracket trim of its argument. */
  lemma StripBracketsSpec(s: string)
    ensures IsBracketTrim(s, StripBrackets(s))
  {
    var left := StripLeading(s);
    var r := StripTrailing(left);
    StripLeadingSpec(s);
    StripTrailingSpec(left);
    var i := |s| - |left|;
    assert TrimBounds(s, r, i, i + |r|) by {
      assert s[i..i + |r|] == left[..|r|];
      assert s[i + |r|..] == left[|r|..];
      assert r != [] ==> r[0] == left[0];
    }
  }

  /** The bracket trim of a string is unique: `strip("[]")` has exactly one
      possible result. */
  lemma {:induction false} BracketTrimUnique(s: string, r1: string, r2: string)
    requires IsBracketTrim(s, r1) && IsBracketTrim(s, r2)
    ensures r1 == r2
  {
    var i1, j1 :| TrimBounds(s, r1, i1, j1);
    var i2, j2 :| TrimBounds(s, r2, i2, j2);
    if r1 != [] && r2 != [] {
      assert s[i1] == r1[0] && s[i2] == r2[0];
      assert s[j1 - 1] == r1[|r1| - 1] && s[j2 - 1] == r2[|r2| - 1];
      assert i1 == i2 && j1 == j2;
    } else if r1 != [] {
      BracketTrimEmpty(s, i2, j2);
    } else if r2 != [] {
      BracketTrimEmpty(s, i1, j1);
    }
  }

  /** An empty trim means the whole string was brackets. */
  lemma BracketTrimEmpty(s: string, i: int, j: int)
    requires TrimBounds(s, [], i, j)
    ensures AllBrackets(s)
  {
    assert i == j;
    forall k | 0 <= k < |s|
      ensures IsBracket(s[k])
    {
      if k < i { assert s[..i][k] == s[k]; } else { assert s[j..][k - j] == s[k]; }
    }
  }

  /** A text is dropped after stripping exactly when it consists of brackets only. */
  lemma StripEmptyIffAllBrackets(s: string)
    ensures StripBrackets(s) == [] <==> AllBrackets(s)
  {
    var r := StripBrackets(s);
    StripBracketsSpec(s);
    var i, j :| TrimBounds(s, r, i, j);
    if r == [] {
      BracketTrimEmpty(s, i, j);
    } else {
      assert s[i] == r[0];
    }
  }

  /** Stripping twice is the same as stripping once. */
  lemma StripIdempotent(s: string)
    ensures StripBrackets(StripBrackets(s)) == StripBrackets(s)
  {
    var r := StripBrackets(s);
    StripBracketsSpec(s);
    StripBracketsSpec(r);
    var i, j :| TrimBounds(s, r, i, j);
    assert TrimBounds(r, r, 0, |r|) by {
      assert r[..0] == [] && r[|r|..] == [];
    }
    BracketTrimUnique(r, r, StripBrackets(r));
  }

  /** Every bracket run at either end is removed, not just one pair. */
  lemma StripNestedPair()
    ensures StripBrackets("[[a]]") == "a"
  {
    assert TrimBounds("[[a]]", "a", 2, 3);
    StripBracketsSpec("[[a]]");
    BracketTrimUnique("[[a]]", "a", StripBrackets("[[a]]"));
  }

  /** The two ends are stripped independently, whatever the bracket direction. */
  lemma StripReversedPair()
    ensures StripBrackets("]a[") == "a"
  {
    assert TrimBounds("]a[", "a", 1, 2);
    StripBracketsSpec("]a[");
    BracketTrimUnique("]a[", "a", StripBrackets("]a["));
  }

  /** A bracket-wrapped caption loses its wrapping. */
  lemma StripWrappedCaption()
    ensures StripBrackets("[Hello World]") == "Hello World"
  {
    var hello := "[Hello World]";
    assert TrimBounds(hello, "Hello World", 1, |hello| - 1);
    StripBracketsSpec(hello);
    BracketTrimUnique(hello, "Hello World", StripBrackets(hello));
  }

  /** A text of brackets only becomes empty. */
  lemma StripOnlyBrackets()
    ensures StripBrackets("[]") == ""
  {
    assert AllBrackets("[]");
    StripEmptyIffAllBrackets("[]");
  }

  /** Brackets inside the text are kept. */
  lemma StripKeepsInnerBrackets()
    ensures StripBrackets("[a]b]") == "a]b"
  {
    assert TrimBounds("[a]b]", "a]b", 1, 4);
    StripBracketsSpec("[a]b]");
    BracketTrimUnique("[a]b]", "a]b", StripBrackets("[a]b]"));
  }
}

=== FILE: scene_convert.dfy ===
/** The template-to-scene converter: turns a template record (video, mutable,
    text and audio materials plus a canvas size) into a scene whose children
    are the kept image blocks, then the text blocks, then the audio blocks.
    Reading the template file and writing the scene file are not modelled;
    `basePath` (the stem of the output file name in the program) is a parameter. */
module SceneConvert {
  import opened Wrappers
  import opened PyStr
  import opened PosixPath
  import opened Sequences

  const DefaultWidth := 720
  const DefaultHeight := 1280
  const DefaultFontSize := 30
  /** Horizontal step of the image cascade. */
  const XOffset := 50
  const ImageY := 100
  const TextX := 100
  const TextTop := 300
  const TextSpacing := 100
  const CoverMarker := "video/cover/"
  const VideoPrefix := "video/"
  const Centered := "center"
  /** Raw audio durations are in units of 10^-5 seconds. */
  const DurationUnitsPerSecond := 100000

  // ---------------------------------------------------------------------------
  // Input: the template record. An empty string stands for a missing or
  // falsy string field; keys with a non-empty default are optional.

  datatype VideoMaterial = VideoMaterial(path: string, coverPath: string)
  datatype MutableMaterial = MutableMaterial(coverPath: string)
  datatype TextMaterial = TextMaterial(content: string, fontPath: string, textSize: Option<int>)
  datatype AudioMaterial = AudioMaterial(path: string, url: string, duration: Option<int>)

  datatype Template = Template(
    width: Option<int>,
    height: Option<int>,
    videos: seq<VideoMaterial>,
    mutables: seq<MutableMaterial>,
    texts: seq<TextMaterial>,
    audios: seq<AudioMaterial>)

  // ---------------------------------------------------------------------------
  // Output: the scene.

  /** Which material list an image block came from. */
  datatype Source = Cover | Video | Mutable

  /** An image block before layout (its position and scale are still empty). */
  datatype RawImage = RawImage(uri: string, source: Source, originPath: string)

  datatype Position = Position(x: int, y: int)
  datatype Scale = Scale(x: real, y: real)
  datatype Style = Style(font: string, fontSize: int, textAlign: string)

  datatype Element =
    | ImageBlock(uri: string, source: Source, originPath: string, position: Position, scale: Scale)
    | TextBlock(text: string, position: Position, scale: Scale, style: Style)
    | AudioBlock(uri: string, durationRaw: int, position: Position, start: int)

  datatype Scene = Scene(width: int, height: int, children: seq<Element>)

  const UnitScale := Scale(1.0, 1.0)

  /** `f"{base_path}/{path}"`. */
  function AssetUri(basePath: string, path: string): string {
    basePath + "/" + path
  }

  /** The duration of an audio block in seconds. */
  ghost function DurationSeconds(durationRaw: int): (seconds: real)
    ensures seconds * DurationUnitsPerSecond as real == durationRaw as real
  {
    durationRaw as real / DurationUnitsPerSecond as real
  }

  // ---------------------------------------------------------------------------
  // Step 1: cover-stem harvesting.

  /** A cover path that is present and, with backslashes read as slashes,
      mentions `video/cover/`. */
  predicate IsHarvestedCover(coverPath: string) {
    coverPath != "" && Contains(NormalizeSlashes(coverPath), CoverMarker)
  }

  /** The stems of all harvested cover paths. The stem is taken from the
      cover path as written, backslashes included. */
  function CoverStems(videos: seq<VideoMaterial>): set<string>
  {
    set i | 0 <= i < |videos| && IsHarvestedCover(videos[i].coverPath) :: Stem(videos[i].coverPath)
  }

  // ---------------------------------------------------------------------------
  // Steps 2 and 3: raw image blocks.

  function Emit(basePath: string, source: Source, path: string): RawImage {
    RawImage(AssetUri(basePath, path), source, path)
  }

  /** The blocks one video material contributes: its cover, then its video. */
  function BlocksOfVideo(basePath: string, v: VideoMaterial): seq<RawImage> {
    (if v.coverPath != "" then [Emit(basePath, Cover, v.coverPath)] else [])
    + (if v.path != "" then [Emit(basePath, Video, v.path)] else [])
  }

  /** A raw block is well formed: a non-empty origin path and the uri built from it. */
  predicate WellFormed(basePath: string, b: RawImage) {
    b.originPath != "" && b.uri == AssetUri(basePath, b.originPath)
  }

  /** The image blocks of the video materials, in material order. */
  function VideoImageBlocks(basePath: string, videos: seq<VideoMaterial>): (raw: seq<RawImage>)
    ensures forall b :: b in raw ==> WellFormed(basePath, b) && b.source != Mutable
    decreases |videos|
  {
    if videos == [] then []
    else
      var n := |videos| - 1;
      VideoImageBlocks(basePath, videos[..n]) + BlocksOfVideo(basePath, videos[n])
  }

  /** The image blocks of the mutable materials, in material order. */
  function MutableImageBlocks(basePath: string, mutables: seq<MutableMaterial>): (raw: seq<RawImage>)
    ensures forall b :: b in raw ==> WellFormed(basePath, b) && b.source == Mutable
    decreases |mutables|
  {
    if mutables == [] then []
    else
      var n := |mutables| - 1;
      var m := mutables[n];
      MutableImageBlocks(basePath, mutables[..n])
      + (if m.coverPath != "" then [Emit(basePath, Mutable, m.coverPath)] else [])
  }

  /** All raw image blocks: every video-material block precedes every
      mutable-material block. */
  function RawImageBlocks(basePath: string, videos: seq<VideoMaterial>, mutables: seq<MutableMaterial>): (raw: seq<RawImage>)
    ensures forall b :: b in raw ==> WellFormed(basePath, b)
    ensures forall i, j :: 0 <= i < j < |raw| && raw[i].source == Mutable ==> raw[j].source == Mutable
    ensures |raw| == |VideoImageBlocks(basePath, videos)| + |MutableImageBlocks(basePath, mutables)|
  {
    var fromVideos := VideoImageBlocks(basePath, videos);
    var fromMutables := MutableImageBlocks(basePath, mutables);
    var raw := fromVideos + fromMutables;
    assert forall i :: 0 <= i < |fromVideos| ==> raw[i] in fromVideos;
    assert forall i :: |fromVideos| <= i < |raw| ==> raw[i] in fromMutables;
    raw
  }

  // ---------------------------------------------------------------------------
  // Step 4: the cross-list filter and the cascade layout.

  /** A raw `video` block under `video/` whose stem is a harvested cover stem. */
  predicate Suppressed(b: RawImage, stems: set<string>) {
    var path := NormalizeSlashes(b.originPath);
    b.source == Video && StartsWith(path, VideoPrefix) && Stem(path) in stems
  }

  /** The raw blocks that survive the filter, in their original order. */
  function KeptImages(raw: seq<RawImage>, stems: set<string>): (kept: seq<RawImage>)
    ensures forall b :: b in kept <==> b in raw && !Suppressed(b, stems)
    ensures forall b :: b in raw && b.source != Video ==> b in kept
    ensures IsSubsequence(kept, raw)
    decreases |raw|
  {
    if raw == [] then []
    else
      var n := |raw| - 1;
      var earlier := KeptImages(raw[..n], stems);
      assert raw == raw[..n] + [raw[n]];
      if Suppressed(raw[n], stems) then
        SubsequenceExtend(earlier, raw[..n], raw[n]);
        earlier
      else
        SubsequenceExtendBoth(earlier, raw[..n], raw[n]);
        earlier + [raw[n]]
  }

  /** The k-th kept block (0-based) placed at `x = 50 * (k + 1)`, `y = 100`. */
  function Place(b: RawImage, k: nat): Element {
    ImageBlock(b.uri, b.source, b.originPath, Position(XOffset * (k + 1), ImageY), UnitScale)
  }

  function Layout(kept: seq<RawImage>): seq<Element> {
    seq(|kept|, k requires 0 <= k < |kept| => Place(kept[k], k))
  }

  lemma LayoutAppend(kept: seq<RawImage>, b: RawImage)
    ensures Layout(kept + [b]) == Layout(kept) + [Place(b, |kept|)]
  {
  }

  /** The filter-and-place loop as the program writes it: a block is placed at
      the cascade slot given by the number of blocks placed before it. */
  method PlaceImageBlocks(raw: seq<RawImage>, stems: set<string>) returns (placed: seq<Element>)
    ensures placed == Layout(KeptImages(raw, stems))
    ensures forall k :: 0 <= k < |placed| ==>
      placed[k].ImageBlock? && placed[k].position == Position(XOffset * (k + 1), ImageY)
      && placed[k].scale == UnitScale
  {
    placed := [];
    var i := 0;
    while i < |raw|
      invariant 0 <= i <= |raw|
      invariant placed == Layout(KeptImages(raw[..i], stems))
    {
      var block := raw[i];
      var path := NormalizeSlashes(block.originPath);
      assert raw[..i + 1][..i] == raw[..i];
      ghost var kept := KeptImages(raw[..i], stems);
      if block.source == Video && StartsWith(path, VideoPrefix) && Stem(path) in stems {
        // a video frame that duplicates a harvested cover
        assert KeptImages(raw[..i + 1], stems) == kept;
      } else {
        assert KeptImages(raw[..i + 1], stems) == kept + [block];
        LayoutAppend(kept, block);
        placed := placed + [Place(block, |placed|)];
      }
      i := i + 1;
    }
    assert raw[..|raw|] == raw;
  }

  // ---------------------------------------------------------------------------
  // Text blocks.

  /** The text block for the material at original index `i`. */
  function TextBlockOf(basePath: string, t: TextMaterial, i: nat): Element {
    TextBlock(
      StripBrackets(t.content),
      Position(TextX, TextTop + i * TextSpacing),
      UnitScale,
      Style(if t.fontPath != "" then AssetUri(basePath, t.fontPath) else "",
            t.textSize.GetOr(DefaultFontSize),
            Centered))
  }

  /** A text material is emitted when something is left after stripping brackets. */
  predicate HasText(t: TextMaterial) {
    StripBrackets(t.content) != ""
  }

  /** Each block's `y` is greater than every earlier block's. */
  predicate RowsAscending(blocks: seq<Element>) {
    forall a, b :: 0 <= a < b < |blocks| ==> blocks[a].position.y < blocks[b].position.y
  }

  /** Every block's `y` lies in `[lo, hi)`. */
  predicate RowsWithin(blocks: seq<Element>, lo: int, hi: int) {
    forall k :: 0 <= k < |blocks| ==> lo <= blocks[k].position.y < hi
  }

  /** A centred, non-empty text block in the text column. */
  predicate IsCaption(e: Element) {
    e.TextBlock? && e.text != "" && e.position.x == TextX && e.scale == UnitScale
    && e.style.textAlign == Centered
  }

  /** Appending a caption placed below all earlier ones keeps the column in order. */
  lemma AppendCaption(blocks: seq<Element>, e: Element, lo: int, hi: int)
    requires forall k :: 0 <= k < |blocks| ==> IsCaption(blocks[k])
    requires RowsAscending(blocks) && RowsWithin(blocks, lo, e.position.y)
    requires IsCaption(e) && lo <= e.position.y < hi
    ensures forall k :: 0 <= k < |blocks + [e]| ==> IsCaption((blocks + [e])[k])
    ensures RowsAscending(blocks + [e]) && RowsWithin(blocks + [e], lo, hi)
  {
    var s := blocks + [e];
    forall a, b | 0 <= a < b < |s|
      ensures s[a].position.y < s[b].position.y
    {
      assert s[a] == blocks[a];
      if b < |blocks| {
        assert s[b] == blocks[b];
      }
    }
    assert forall k :: 0 <= k < |blocks| ==> s[k] == blocks[k];
  }

  /** One block per text material with text left after stripping, placed by its
      index in the full list (omitted materials still use up a row). */
  function TextBlocks(basePath: string, texts: seq<TextMaterial>): (blocks: seq<Element>)
    ensures forall k :: 0 <= k < |blocks| ==> IsCaption(blocks[k])
    ensures RowsWithin(blocks, TextTop, TextTop + |texts| * TextSpacing)
    ensures RowsAscending(blocks)
    decreases |texts|
  {
    if texts == [] then []
    else
      var n := |texts| - 1;
      var earlier := TextBlocks(basePath, texts[..n]);
      if HasText(texts[n]) then
        var block := TextBlockOf(basePath, texts[n], n);
        assert IsCaption(block);
        AppendCaption(earlier, block, TextTop, TextTop + |texts| * TextSpacing);
        earlier + [block]
      else
        earlier
  }

  // ---------------------------------------------------------------------------
  // Audio blocks.

  /** `audio.get("path") or audio.get("url")`. */
  function AudioSource(a: AudioMaterial): string {
    if a.path != "" then a.path else a.url
  }

  function AudioBlockOf(basePath: string, a: AudioMaterial): Element {
    AudioBlock(AssetUri(basePath, AudioSource(a)), a.duration.GetOr(0), Position(0, 0), 0)
  }

  /** One block per audio material that has a path or a url, in material order. */
  function AudioBlocks(basePath: string, audios: seq<AudioMaterial>): (blocks: seq<Element>)
    ensures forall e :: e in blocks <==>
      exists i :: 0 <= i < |audios| && AudioSource(audios[i]) != "" && e == AudioBlockOf(basePath, audios[i])
    ensures forall e :: e in blocks ==>
      e.AudioBlock? && e.position == Position(0, 0) && e.start == 0
    ensures |blocks| <= |audios|
    decreases |audios|
  {
    if audios == [] then []
    else
      var n := |audios| - 1;
      var earlier := AudioBlocks(basePath, audios[..n]);
      assert forall i :: 0 <= i < n ==> audios[..n][i] == audios[i];
      if AudioSource(audios[n]) != "" then earlier + [AudioBlockOf(basePath, audios[n])] else earlier
  }

  // ---------------------------------------------------------------------------
  // Assembly.

  /** The reading order of element kinds: images, then texts, then audios. */
  function Rank(e: Element): nat {
    match e
    case ImageBlock(_, _, _, _, _) => 0
    case TextBlock(_, _, _, _) => 1
    case AudioBlock(_, _, _, _) => 2
  }

  predicate AllOfRank(s: seq<Element>, r: nat) {
    forall k :: 0 <= k < |s| ==> Rank(s[k]) == r
  }

  /** Three single-kind runs of increasing rank concatenate into a rank-ordered sequence. */
  lemma RankedConcat(a: seq<Element>, b: seq<Element>, c: seq<Element>)
    requires AllOfRank(a, 0) && AllOfRank(b, 1) && AllOfRank(c, 2)
    ensures forall i, j :: 0 <= i < j < |a + b + c| ==> Rank((a + b + c)[i]) <= Rank((a + b + c)[j])
  {
    var s := a + b + c;
    forall i, j | 0 <= i < j < |s| ensures Rank(s[i]) <= Rank(s[j]) {
      var ri := if i < |a| then 0 else if i < |a| + |b| then 1 else 2;
      var rj := if j < |a| then 0 else if j < |a| + |b| then 1 else 2;
      if i < |a| { assert s[i] == a[i]; } else if i < |a| + |b| { assert s[i] == b[i - |a|]; } else { assert s[i] == c[i - |a| - |b|]; }
      if j < |a| { assert s[j] == a[j]; } else if j < |a| + |b| { assert s[j] == b[j - |a|]; } else { assert s[j] == c[j - |a| - |b|]; }
    }
  }

  /** The kept image blocks of a template, laid out. */
  function ImageElements(t: Template, basePath: string): seq<Element> {
    Layout(KeptImages(RawImageBlocks(basePath, t.videos, t.mutables), CoverStems(t.videos)))
  }

  /** The whole conversion. */
  function Convert(t: Template, basePath: string): (scene: Scene)
    ensures t.width.None? ==> scene.width == DefaultWidth
    ensures t.width.Some? ==> scene.width == t.width.value
    ensures t.height.None? ==> scene.height == DefaultHeight
    ensures t.height.Some? ==> scene.height == t.height.value
    ensures forall i, j :: 0 <= i < j < |scene.children| ==>
      Rank(scene.children[i]) <= Rank(scene.children[j])
    ensures |scene.children| ==
      |ImageElements(t, basePath)| + |TextBlocks(basePath, t.texts)| + |AudioBlocks(basePath, t.audios)|
  {
    var images := ImageElements(t, basePath);
    var texts := TextBlocks(basePath, t.texts);
    var audios := AudioBlocks(basePath, t.audios);
    assert AllOfRank(images, 0);
    assert AllOfRank(texts, 1) by {
      forall k | 0 <= k < |texts| ensures Rank(texts[k]) == 1 { assert texts[k] in texts; }
    }
    assert AllOfRank(audios, 2) by {
      forall k | 0 <= k < |audios| ensures Rank(audios[k]) == 2 { assert audios[k] in audios; }
    }
    var children := images + texts + audios;
    RankedConcat(images, texts, audios);
    Scene(t.width.GetOr(DefaultWidth), t.height.GetOr(DefaultHeight), children)
  }
}

=== FILE: scene_laws.dfy ===
/** Properties of the template-to-scene converter that relate several of its
    steps: the section structure of the children, the cascade layout, the
    cover/video de-duplication law, and order preservation. */
module SceneLaws {
  import opened Wrappers
  import opened PyStr
  import opened PosixPath
  import opened Sequences
  import opened SceneConvert

  // ---------------------------------------------------------------------------
  // Children = kept images ++ texts ++ audios.

  /** The elements of kind `r`, in order. */
  function OfRank(s: seq<Element>, r: nat): seq<Element>
    decreases |s|
  {
    if s == [] then []
    else OfRank(s[..|s| - 1], r) + (if Rank(s[|s| - 1]) == r then [s[|s| - 1]] else [])
  }

  lemma {:induction false} OfRankAppend(a: seq<Element>, b: seq<Element>, r: nat)
    ensures OfRank(a + b, r) == OfRank(a, r) + OfRank(b, r)
    decreases |b|
  {
    if b != [] {
      var n := |b| - 1;
      assert (a + b)[..|a + b| - 1] == a + b[..n];
      OfRankAppend(a, b[..n], r);
    } else {
      assert a + b == a;
    }
  }

  lemma {:induction false} OfRankSelf(s: seq<Element>, r: nat)
    requires AllOfRank(s, r)
    ensures OfRank(s, r) == s
    decreases |s|
  {
    if s != [] {
      OfRankSelf(s[..|s| - 1], r);
    }
  }

  lemma {:induction false} OfRankOther(s: seq<Element>, r: nat, other: nat)
    requires AllOfRank(s, other) && r != other
    ensures OfRank(s, r) == []
    decreases |s|
  {
    if s != [] {
      OfRankOther(s[..|s| - 1], r, other);
    }
  }

  lemma SectionKinds(t: Template, basePath: string)
    ensures AllOfRank(ImageElements(t, basePath), 0)
    ensures AllOfRank(TextBlocks(basePath, t.texts), 1)
    ensures AllOfRank(AudioBlocks(basePath, t.audios), 2)
  {
    var audios := AudioBlocks(basePath, t.audios);
    forall k | 0 <= k < |audios| ensures Rank(audios[k]) == 2 {
      assert audios[k] in audios;
    }
  }

  lemma ConvertChildren(t: Template, basePath: string)
    ensures Convert(t, basePath).children
      == ImageElements(t, basePath) + TextBlocks(basePath, t.texts) + AudioBlocks(basePath, t.audios)
  {
  }

  /** Filtering a concatenation of three single-kind runs recovers each run. */
  lemma SplitSections(a: seq<Element>, b: seq<Element>, c: seq<Element>)
    requires AllOfRank(a, 0) && AllOfRank(b, 1) && AllOfRank(c, 2)
    ensures OfRank(a + b + c, 0) == a
    ensures OfRank(a + b + c, 1) == b
    ensures OfRank(a + b + c, 2) == c
  {
    OfRankAppend(a + b, c, 0);
    OfRankAppend(a + b, c, 1);
    OfRankAppend(a + b, c, 2);
    OfRankAppend(a, b, 0);
    OfRankAppend(a, b, 1);
    OfRankAppend(a, b, 2);
    OfRankSelf(a, 0);
    OfRankOther(a, 1, 0);
    OfRankOther(a, 2, 0);
    OfRankSelf(b, 1);
    OfRankOther(b, 0, 1);
    OfRankOther(b, 2, 1);
    OfRankSelf(c, 2);
    OfRankOther(c, 0, 2);
    OfRankOther(c, 1, 2);
  }

  /** Picking the image, text and audio elements out of the children gives back
      exactly the laid-out kept images, the text blocks and the audio blocks, each
      in its own order; with the rank ordering of `Convert` this says the children
      are those three lists concatenated. */
  lemma ChildrenSections(t: Template, basePath: string)
    ensures OfRank(Convert(t, basePath).children, 0) == ImageElements(t, basePath)
    ensures OfRank(Convert(t, basePath).children, 1) == TextBlocks(basePath, t.texts)
    ensures OfRank(Convert(t, basePath).children, 2) == AudioBlocks(basePath, t.audios)
  {
    ConvertChildren(t, basePath);
    SectionKinds(t, basePath);
    SplitSections(ImageElements(t, basePath), TextBlocks(basePath, t.texts), AudioBlocks(basePath, t.audios));
  }

  // ---------------------------------------------------------------------------
  // The cascade layout.

  /** The laid-out kept images are the first children. */
  lemma ImagesLeadChildren(t: Template, basePath: string)
    ensures |ImageElements(t, basePath)| <= |Convert(t, basePath).children|
    ensures forall k :: 0 <= k < |ImageElements(t, basePath)| ==>
      Convert(t, basePath).children[k] == ImageElements(t, basePath)[k]
  {
    var images := ImageElements(t, basePath);
    var rest := TextBlocks(basePath, t.texts) + AudioBlocks(basePath, t.audios);
    ConvertChildren(t, basePath);
    AppendAssoc(images, TextBlocks(basePath, t.texts), AudioBlocks(basePath, t.audios));
    assert Convert(t, basePath).children == images + rest;
    assert forall k :: 0 <= k < |images| ==> (images + rest)[k] == images[k];
  }

  /** The k-th kept image (0-based) is the k-th child, at `x = 50 * (k + 1)`,
      `y = 100`, with unit scale; so the image x-coordinates strictly increase. */
  lemma ImageCascade(t: Template, basePath: string)
    ensures |ImageElements(t, basePath)| <= |Convert(t, basePath).children|
    ensures forall k :: 0 <= k < |ImageElements(t, basePath)| ==>
      var e := Convert(t, basePath).children[k];
      e.ImageBlock? && e.position == Position(XOffset * (k + 1), ImageY) && e.scale == UnitScale
    ensures forall a, b :: 0 <= a < b < |ImageElements(t, basePath)| ==>
      Convert(t, basePath).children[a].position.x < Convert(t, basePath).children[b].position.x
  {
    var images := ImageElements(t, basePath);
    var children := Convert(t, basePath).children;
    ImagesLeadChildren(t, basePath);
    forall k | 0 <= k < |images|
      ensures children[k].ImageBlock? && children[k].position == Position(XOffset * (k + 1), ImageY)
      ensures children[k].scale == UnitScale
    {
      assert children[k] == images[k];
    }
  }

  /** Three kept image blocks sit at x = 50, 100 and 150. */
  lemma ThreeImageCascade(kept: seq<RawImage>)
    requires |kept| == 3
    ensures [Layout(kept)[0].position, Layout(kept)[1].position, Layout(kept)[2].position]
      == [Position(50, 100), Position(100, 100), Position(150, 100)]
  {
  }

  // ---------------------------------------------------------------------------
  // De-duplication.

  /** In three single-kind runs of increasing rank, a rank-0 element lies in the first run. */
  lemma FirstRunHoldsRankZero(a: seq<Element>, b: seq<Element>, c: seq<Element>, k: int)
    requires AllOfRank(a, 0) && AllOfRank(b, 1) && AllOfRank(c, 2)
    requires 0 <= k < |a + b + c| && Rank((a + b + c)[k]) == 0
    ensures k < |a| && (a + b + c)[k] == a[k]
  {
  }

  /** Every image child is a kept raw block, placed. */
  lemma ImageChildIsKept(t: Template, basePath: string, e: Element)
    requires e in Convert(t, basePath).children && e.ImageBlock?
    ensures RawImage(e.uri, e.source, e.originPath) in
      KeptImages(RawImageBlocks(basePath, t.videos, t.mutables), CoverStems(t.videos))
  {
    var kept := KeptImages(RawImageBlocks(basePath, t.videos, t.mutables), CoverStems(t.videos));
    var images := ImageElements(t, basePath);
    var texts := TextBlocks(basePath, t.texts);
    var audios := AudioBlocks(basePath, t.audios);
    ConvertChildren(t, basePath);
    SectionKinds(t, basePath);
    var k :| 0 <= k < |images + texts + audios| && (images + texts + audios)[k] == e;
    FirstRunHoldsRankZero(images, texts, audios, k);
    assert e == Place(kept[k], k);
  }

  /** Every kept raw block appears among the children. */
  lemma KeptIsImageChild(t: Template, basePath: string, b: RawImage)
    requires b in KeptImages(RawImageBlocks(basePath, t.videos, t.mutables), CoverStems(t.videos))
    ensures exists k :: (0 <= k < |Convert(t, basePath).children| &&
      Convert(t, basePath).children[k] == Place(b, k))
  {
    var kept := KeptImages(RawImageBlocks(basePath, t.videos, t.mutables), CoverStems(t.videos));
    var k :| 0 <= k < |kept| && kept[k] == b;
    var children := Convert(t, basePath).children;
    ConvertChildren(t, basePath);
    assert children[k] == ImageElements(t, basePath)[k] == Place(b, k);
  }

  /** If a video material's path lies under `video/` and has the stem of some
      harvested cover, the scene holds no `video` image for that path, while the
      cover image itself is kept. */
  lemma DedupLaw(t: Template, basePath: string, i: nat, j: nat)
    requires i < |t.videos| && j < |t.videos|
    requires IsHarvestedCover(t.videos[j].coverPath)
    requires StartsWith(NormalizeSlashes(t.videos[i].path), VideoPrefix)
    requires Stem(NormalizeSlashes(t.videos[i].path)) == Stem(t.videos[j].coverPath)
    ensures forall e :: e in Convert(t, basePath).children && e.ImageBlock? && e.source == Video ==>
      e.originPath != t.videos[i].path
    ensures exists k :: (0 <= k < |Convert(t, basePath).children| &&
      Convert(t, basePath).children[k] == Place(Emit(basePath, Cover, t.videos[j].coverPath), k))
  {
    var stems := CoverStems(t.videos);
    var raw := RawImageBlocks(basePath, t.videos, t.mutables);
    assert Stem(t.videos[j].coverPath) in stems;
    forall e | e in Convert(t, basePath).children && e.ImageBlock? && e.source == Video
      ensures e.originPath != t.videos[i].path
    {
      ImageChildIsKept(t, basePath, e);
      assert !Suppressed(RawImage(e.uri, e.source, e.originPath), stems);
    }
    var cover := Emit(basePath, Cover, t.videos[j].coverPath);
    VideoBlocksEmitted(basePath, t.videos);
    assert cover in raw;
    KeptIsImageChild(t, basePath, cover);
  }

  /** A `video` block is dropped only when it is suppressed: any other raw block,
      in particular every cover and mutable block, reaches the scene. */
  lemma OnlySuppressedDropped(t: Template, basePath: string, b: RawImage)
    requires b in RawImageBlocks(basePath, t.videos, t.mutables)
    requires !Suppressed(b, CoverStems(t.videos))
    ensures exists k :: (0 <= k < |Convert(t, basePath).children| &&
      Convert(t, basePath).children[k] == Place(b, k))
  {
    KeptIsImageChild(t, basePath, b);
  }

  const Clip := "video/clip1.mp4"
  const ClipCover := "video/cover/clip1.jpg"
  const ClipVideos := [VideoMaterial(Clip, ClipCover)]

  lemma ClipCoverHarvested()
    ensures IsHarvestedCover(ClipCover)
  {
    NormalizeWithoutBackslash(ClipCover);
    assert OccursAt(ClipCover, CoverMarker, 0);
  }

  lemma ClipStem()
    ensures Stem(Clip) == "clip1"
  {
    assert Clip[6] != '.';
    StemIs(Clip, 5, 11, 6);
    assert Clip[6..11] == "clip1";
  }

  lemma CoverStemsOfOne(v: VideoMaterial)
    ensures CoverStems([v]) == if IsHarvestedCover(v.coverPath) then {Stem(v.coverPath)} else {}
  {
    var stems := CoverStems([v]);
    assert [v][0] == v;
    if IsHarvestedCover(v.coverPath) {
      assert Stem(v.coverPath) in stems;
    }
    assert forall s :: s in stems ==> IsHarvestedCover(v.coverPath) && s == Stem(v.coverPath);
  }

  lemma ClipStems()
    ensures CoverStems(ClipVideos) == {"clip1"}
  {
    ClipCoverHarvested();
    StemOfCover();
    CoverStemsOfOne(VideoMaterial(Clip, ClipCover));
  }

  lemma ClipSuppressed(basePath: string)
    ensures Suppressed(Emit(basePath, Video, Clip), {"clip1"})
  {
    NormalizeWithoutBackslash(Clip);
    ClipStem();
    ClipUnderVideo();
  }

  lemma ClipUnderVideo()
    ensures StartsWith(Clip, VideoPrefix)
  {
    assert Clip[..6] == "video/";
  }

  lemma ClipRaw(basePath: string)
    ensures RawImageBlocks(basePath, ClipVideos, []) == [Emit(basePath, Cover, ClipCover), Emit(basePath, Video, Clip)]
  {
    assert ClipVideos[..0] == [];
    assert VideoImageBlocks(basePath, ClipVideos) == [Emit(basePath, Cover, ClipCover), Emit(basePath, Video, Clip)];
  }

  lemma KeptOfTwo(a: RawImage, b: RawImage, stems: set<string>)
    requires !Suppressed(a, stems) && Suppressed(b, stems)
    ensures KeptImages([a, b], stems) == [a]
  {
    assert [a, b][..1] == [a];
    assert [a][..0] == [];
  }

  lemma ClipKept(basePath: string)
    ensures KeptImages([Emit(basePath, Cover, ClipCover), Emit(basePath, Video, Clip)], {"clip1"})
      == [Emit(basePath, Cover, ClipCover)]
  {
    ClipSuppressed(basePath);
    KeptOfTwo(Emit(basePath, Cover, ClipCover), Emit(basePath, Video, Clip), {"clip1"});
  }

  lemma ClipImages(basePath: string)
    ensures ImageElements(Template(None, None, ClipVideos, [], [], []), basePath)
      == [Place(Emit(basePath, Cover, ClipCover), 0)]
  {
    ClipStems();
    ClipRaw(basePath);
    ClipKept(basePath);
  }

  /** A `video/clip1.mp4` clip whose cover is
      `video/cover/clip1.jpg` yields only the cover image, at the first slot. */
  lemma DedupExample(basePath: string)
    ensures Convert(Template(None, None, ClipVideos, [], [], []), basePath).children
      == [ImageBlock(basePath + "/" + ClipCover, Cover, ClipCover, Position(50, 100), UnitScale)]
  {
    var t := Template(None, None, ClipVideos, [], [], []);
    ClipImages(basePath);
    assert TextBlocks(basePath, []) == [];
    assert AudioBlocks(basePath, []) == [];
    ConvertChildren(t, basePath);
  }

  const SlashedClip := "video\\clip1.mp4"
  const SlashedCover := "video\\cover\\clip1.jpg"
  const SlashedVideos := [VideoMaterial(SlashedClip, SlashedCover)]

  lemma SlashedCoverHarvested()
    ensures IsHarvestedCover(SlashedCover)
  {
    NormalizeIs(SlashedCover, "video/cover/clip1.jpg");
    assert OccursAt("video/cover/clip1.jpg", CoverMarker, 0);
  }

  lemma SlashedCoverShape()
    ensures forall k :: 0 <= k < |SlashedCover| ==> SlashedCover[k] != '/'
    ensures |SlashedCover| == 21 && SlashedCover[17] == '.' && SlashedCover[0] != '.'
    ensures forall k :: 17 < k < |SlashedCover| ==> SlashedCover[k] != '.'
  {
  }

  lemma SlashedCoverStem()
    ensures Stem(SlashedCover) == "video\\cover\\clip1"
  {
    SlashedCoverShape();
    StemIs(SlashedCover, -1, 17, 0);
    SlashedCoverPrefix();
  }

  lemma SlashedCoverPrefix()
    ensures SlashedCover[0..17] == "video\\cover\\clip1"
  {
  }

  lemma SlashedStems()
    ensures CoverStems(SlashedVideos) == {"video\\cover\\clip1"}
  {
    SlashedCoverHarvested();
    SlashedCoverStem();
    CoverStemsOfOne(VideoMaterial(SlashedClip, SlashedCover));
  }

  lemma SlashedClipStem()
    ensures Stem(NormalizeSlashes(SlashedClip)) == "clip1"
  {
    NormalizeIs(SlashedClip, Clip);
    ClipStem();
  }

  lemma SlashedClipKept(basePath: string)
    ensures !Suppressed(Emit(basePath, Video, SlashedClip), {"video\\cover\\clip1"})
  {
    SlashedClipStem();
  }

  /** Harvesting takes the stem of the cover path as written, so a cover written
      with backslashes keeps its directory in its stem and does not suppress the
      matching backslash-written video path (POSIX `basename` splits on `/` only). */
  lemma BackslashCoverDoesNotSuppress(basePath: string)
    ensures exists k :: (0 <= k < |Convert(Template(None, None, SlashedVideos, [], [], []), basePath).children| &&
      Convert(Template(None, None, SlashedVideos, [], [], []), basePath).children[k]
        == Place(Emit(basePath, Video, SlashedClip), k))
  {
    var t := Template(None, None, SlashedVideos, [], [], []);
    var b := Emit(basePath, Video, SlashedClip);
    SlashedStems();
    SlashedClipKept(basePath);
    VideoBlocksEmitted(basePath, SlashedVideos);
    assert SlashedVideos[0].path == SlashedClip;
    OnlySuppressedDropped(t, basePath, b);
  }

  // ---------------------------------------------------------------------------
  // Raw image blocks.

  /** A video material's cover yields a `cover` block and its path a `video` block. */
  lemma {:induction false} VideoBlocksEmitted(basePath: string, videos: seq<VideoMaterial>)
    ensures forall i :: 0 <= i < |videos| && videos[i].coverPath != "" ==>
      Emit(basePath, Cover, videos[i].coverPath) in VideoImageBlocks(basePath, videos)
    ensures forall i :: 0 <= i < |videos| && videos[i].path != "" ==>
      Emit(basePath, Video, videos[i].path) in VideoImageBlocks(basePath, videos)
    decreases |videos|
  {
    if videos != [] {
      var n := |videos| - 1;
      var front, last := videos[..n], videos[n];
      VideoBlocksEmitted(basePath, front);
      assert VideoImageBlocks(basePath, videos) == VideoImageBlocks(basePath, front) + BlocksOfVideo(basePath, last);
      forall i | 0 <= i < |videos|
        ensures videos[i].coverPath != "" ==> Emit(basePath, Cover, videos[i].coverPath) in VideoImageBlocks(basePath, videos)
        ensures videos[i].path != "" ==> Emit(basePath, Video, videos[i].path) in VideoImageBlocks(basePath, videos)
      {
        if i < n {
          assert videos[i] == front[i];
        }
      }
    }
  }

  /** Every block of the video list comes from the cover or the path of one material. */
  lemma {:induction false} VideoBlocksOrigin(basePath: string, videos: seq<VideoMaterial>)
    ensures forall b :: b in VideoImageBlocks(basePath, videos) ==>
      exists i :: 0 <= i < |videos| && b in BlocksOfVideo(basePath, videos[i])
    decreases |videos|
  {
    if videos != [] {
      var n := |videos| - 1;
      VideoBlocksOrigin(basePath, videos[..n]);
      assert forall i :: 0 <= i < n ==> videos[..n][i] == videos[i];
    }
  }

  /** Each present mutable cover yields a `mutable` block, and nothing else does. */
  lemma {:induction false} MutableImageBlocksMembers(basePath: string, mutables: seq<MutableMaterial>)
    ensures forall b :: b in MutableImageBlocks(basePath, mutables) <==>
      exists i :: 0 <= i < |mutables| && mutables[i].coverPath != "" && b == Emit(basePath, Mutable, mutables[i].coverPath)
    decreases |mutables|
  {
    if mutables != [] {
      var n := |mutables| - 1;
      MutableImageBlocksMembers(basePath, mutables[..n]);
      assert forall i :: 0 <= i < n ==> mutables[..n][i] == mutables[i];
    }
  }

  // ---------------------------------------------------------------------------
  // Order preservation.

  /** One more material appends its own blocks. */
  lemma VideoImageBlocksSnoc(basePath: string, vs: seq<VideoMaterial>, v: VideoMaterial)
    ensures VideoImageBlocks(basePath, vs + [v]) == VideoImageBlocks(basePath, vs) + BlocksOfVideo(basePath, v)
  {
    assert (vs + [v])[..|vs|] == vs;
  }

  /** Video-material blocks are emitted material by material, in list order. */
  lemma {:induction false} VideoImageBlocksAppend(basePath: string, v1: seq<VideoMaterial>, v2: seq<VideoMaterial>)
    ensures VideoImageBlocks(basePath, v1 + v2) == VideoImageBlocks(basePath, v1) + VideoImageBlocks(basePath, v2)
    decreases |v2|
  {
    if v2 == [] {
      assert v1 + v2 == v1;
    } else {
      var n := |v2| - 1;
      var front, last := v2[..n], v2[n];
      assert v2 == front + [last];
      assert v1 + v2 == (v1 + front) + [last];
      VideoImageBlocksAppend(basePath, v1, front);
      VideoImageBlocksSnoc(basePath, v1 + front, last);
      VideoImageBlocksSnoc(basePath, front, last);
      AppendAssoc(VideoImageBlocks(basePath, v1), VideoImageBlocks(basePath, front), BlocksOfVideo(basePath, last));
    }
  }

  /** One more mutable material appends its cover block, if it has a cover. */
  lemma MutableImageBlocksSnoc(basePath: string, ms: seq<MutableMaterial>, m: MutableMaterial)
    ensures MutableImageBlocks(basePath, ms + [m])
      == MutableImageBlocks(basePath, ms) + (if m.coverPath != "" then [Emit(basePath, Mutable, m.coverPath)] else [])
  {
    assert (ms + [m])[..|ms|] == ms;
  }

  /** Mutable-material blocks are emitted material by material, in list order. */
  lemma {:induction false} MutableImageBlocksAppend(basePath: string, m1: seq<MutableMaterial>, m2: seq<MutableMaterial>)
    ensures MutableImageBlocks(basePath, m1 + m2) == MutableImageBlocks(basePath, m1) + MutableImageBlocks(basePath, m2)
    decreases |m2|
  {
    if m2 == [] {
      assert m1 + m2 == m1;
    } else {
      var n := |m2| - 1;
      var front, last := m2[..n], m2[n];
      var tail := if last.coverPath != "" then [Emit(basePath, Mutable, last.coverPath)] else [];
      assert m2 == front + [last];
      assert m1 + m2 == (m1 + front) + [last];
      MutableImageBlocksAppend(basePath, m1, front);
      MutableImageBlocksSnoc(basePath, m1 + front, last);
      MutableImageBlocksSnoc(basePath, front, last);
      AppendAssoc(MutableImageBlocks(basePath, m1), MutableImageBlocks(basePath, front), tail);
    }
  }

  /** One more raw block is appended to the survivors unless it is suppressed. */
  lemma KeptImagesSnoc(rs: seq<RawImage>, r: RawImage, stems: set<string>)
    ensures KeptImages(rs + [r], stems) == KeptImages(rs, stems) + (if Suppressed(r, stems) then [] else [r])
  {
    assert (rs + [r])[..|rs|] == rs;
  }

  /** The filter keeps survivors in order: filtering a concatenation filters each part. */
  lemma {:induction false} KeptImagesAppend(r1: seq<RawImage>, r2: seq<RawImage>, stems: set<string>)
    ensures KeptImages(r1 + r2, stems) == KeptImages(r1, stems) + KeptImages(r2, stems)
    decreases |r2|
  {
    if r2 == [] {
      assert r1 + r2 == r1;
    } else {
      var n := |r2| - 1;
      var front, last := r2[..n], r2[n];
      assert r2 == front + [last];
      assert r1 + r2 == (r1 + front) + [last];
      KeptImagesAppend(r1, front, stems);
      KeptImagesSnoc(r1 + front, last, stems);
      KeptImagesSnoc(front, last, stems);
      AppendAssoc(KeptImages(r1, stems), KeptImages(front, stems), if Suppressed(last, stems) then [] else [last]);
    }
  }

  /** One more audio material appends its block when it has a source. */
  lemma AudioBlocksSnoc(basePath: string, earlier: seq<AudioMaterial>, a: AudioMaterial)
    ensures AudioBlocks(basePath, earlier + [a])
      == AudioBlocks(basePath, earlier) + (if AudioSource(a) != "" then [AudioBlockOf(basePath, a)] else [])
  {
    assert (earlier + [a])[..|earlier|] == earlier;
  }

  /** Audio blocks are emitted in material order. */
  lemma {:induction false} AudioBlocksAppend(basePath: string, a1: seq<AudioMaterial>, a2: seq<AudioMaterial>)
    ensures AudioBlocks(basePath, a1 + a2) == AudioBlocks(basePath, a1) + AudioBlocks(basePath, a2)
    decreases |a2|
  {
    if a2 == [] {
      assert a1 + a2 == a1;
    } else {
      var n := |a2| - 1;
      var front, last := a2[..n], a2[n];
      assert a2 == front + [last];
      assert a1 + a2 == (a1 + front) + [last];
      AudioBlocksAppend(basePath, a1, front);
      AudioBlocksSnoc(basePath, a1 + front, last);
      AudioBlocksSnoc(basePath, front, last);
      AppendAssoc(AudioBlocks(basePath, a1), AudioBlocks(basePath, front),
                  if AudioSource(last) != "" then [AudioBlockOf(basePath, last)] else []);
    }
  }

  // ---------------------------------------------------------------------------
  // Text blocks.

  /** Every material with text left after stripping gets a block at the row of
      its original index. */
  lemma {:induction false} TextBlocksEmitted(basePath: string, texts: seq<TextMaterial>)
    ensures forall i :: 0 <= i < |texts| && HasText(texts[i]) ==>
      TextBlockOf(basePath, texts[i], i) in TextBlocks(basePath, texts)
    decreases |texts|
  {
    if texts != [] {
      var n := |texts| - 1;
      var earlier := TextBlocks(basePath, texts[..n]);
      TextBlocksEmitted(basePath, texts[..n]);
      forall i | 0 <= i < |texts| && HasText(texts[i])
        ensures TextBlockOf(basePath, texts[i], i) in TextBlocks(basePath, texts)
      {
        if i < n {
          assert texts[..n][i] == texts[i];
          assert TextBlockOf(basePath, texts[i], i) in earlier;
        }
      }
    }
  }

  /** Every text block comes from a material with text left, at its index. */
  lemma {:induction false} TextBlocksOrigin(basePath: string, texts: seq<TextMaterial>)
    ensures forall e :: e in TextBlocks(basePath, texts) ==>
      exists i :: 0 <= i < |texts| && HasText(texts[i]) && e == TextBlockOf(basePath, texts[i], i)
    decreases |texts|
  {
    if texts != [] {
      var n := |texts| - 1;
      var earlier := TextBlocks(basePath, texts[..n]);
      TextBlocksOrigin(basePath, texts[..n]);
      forall e | e in TextBlocks(basePath, texts)
        ensures exists i :: 0 <= i < |texts| && HasText(texts[i]) && e == TextBlockOf(basePath, texts[i], i)
      {
        if e in earlier {
          var i :| 0 <= i < n && HasText(texts[..n][i]) && e == TextBlockOf(basePath, texts[..n][i], i);
          assert texts[..n][i] == texts[i];
        } else {
          assert HasText(texts[n]) && e == TextBlockOf(basePath, texts[n], n);
        }
      }
    }
  }

  /** A material is skipped exactly when its content is made of brackets only. */
  lemma TextOmittedIffOnlyBrackets(t: TextMaterial)
    ensures !HasText(t) <==> AllBrackets(t.content)
  {
    StripEmptyIffAllBrackets(t.content);
  }

  /** Text styling: the font is resolved under the base path when given, the
      size is the given `text_size` and defaults to 30, the alignment is always centred. */
  lemma TextStyle(basePath: string, t: TextMaterial, i: nat)
    ensures t.fontPath == "" ==> TextBlockOf(basePath, t, i).style.font == ""
    ensures t.fontPath != "" ==> TextBlockOf(basePath, t, i).style.font == basePath + "/" + t.fontPath
    ensures t.textSize.None? ==> TextBlockOf(basePath, t, i).style.fontSize == 30
    ensures t.textSize.Some? ==> TextBlockOf(basePath, t, i).style.fontSize == t.textSize.value
    ensures TextBlockOf(basePath, t, i).style.textAlign == "center"
    ensures TextBlockOf(basePath, t, i).text == StripBrackets(t.content)
    ensures TextBlockOf(basePath, t, i).position == Position(100, 300 + 100 * i)
  {
  }

  // ---------------------------------------------------------------------------
  // Audio.

  /** The audio uri prefers `path` over `url`; the duration is the given one and defaults to 0. */
  lemma AudioSourcePreference(basePath: string, a: AudioMaterial)
    ensures a.path != "" ==> AudioBlockOf(basePath, a).uri == basePath + "/" + a.path
    ensures a.path == "" ==> AudioBlockOf(basePath, a).uri == basePath + "/" + a.url
    ensures a.duration.None? ==> AudioBlockOf(basePath, a).durationRaw == 0
    ensures a.duration.Some? ==> AudioBlockOf(basePath, a).durationRaw == a.duration.value
    ensures AudioBlockOf(basePath, a).position == Position(0, 0) && AudioBlockOf(basePath, a).start == 0
  {
  }

  /** 500000 raw units are 5 seconds. */
  lemma DurationExamples()
    ensures DurationSeconds(500000) == 5.0
    ensures DurationSeconds(0) == 0.0
  {
  }
}

=== FILE: sequences.dfy ===
/** Order-preserving selection from a sequence. */
module Sequences {

  /** `a` can be obtained from `b` by deleting elements, keeping the rest in order. */
  ghost predicate IsSubsequence<T>(a: seq<T>, b: seq<T>)
    decreases |b|
  {
    if a == [] then true
    else if b == [] then false
    else
      (a[|a| - 1] == b[|b| - 1] && IsSubsequence(a[..|a| - 1], b[..|b| - 1]))
      || IsSubsequence(a, b[..|b| - 1])
  }

  /** Appending one element to the larger sequence keeps a subsequence a subsequence. */
  lemma {:induction false} SubsequenceExtend<T>(a: seq<T>, b: seq<T>, x: T)
    requires IsSubsequence(a, b)
    ensures IsSubsequence(a, b + [x])
  {
    if a != [] {
      assert (b + [x])[..|b + [x]| - 1] == b;
    }
  }

  /** Appending the same element to both sides keeps a subsequence a subsequence. */
  lemma {:induction false} SubsequenceExtendBoth<T>(a: seq<T>, b: seq<T>, x: T)
    requires IsSubsequence(a, b)
    ensures IsSubsequence(a + [x], b + [x])
  {
    assert (a + [x])[..|a + [x]| - 1] == a;
    assert (b + [x])[..|b + [x]| - 1] == b;
  }

  /** Every element of a subsequence occurs in the larger sequence. */
  lemma {:induction false} SubsequenceMembers<T>(a: seq<T>, b: seq<T>)
    requires IsSubsequence(a, b)
    ensures forall x :: x in a ==> x in b
    decreases |b|
  {
    if a != [] && b != [] {
      var a', b' := a[..|a| - 1], b[..|b| - 1];
      if a[|a| - 1] == b[|b| - 1] && IsSubsequence(a', b') {
        SubsequenceMembers(a', b');
        assert a == a' + [a[|a| - 1]];
        assert b == b' + [b[|b| - 1]];
      } else {
        SubsequenceMembers(a, b');
        assert b == b' + [b[|b| - 1]];
      }
    }
  }

  /** Concatenation is associative. */
  lemma AppendAssoc<T>(a: seq<T>, b: seq<T>, c: seq<T>)
    ensures (a + b) + c == a + (b + c)
  {
  }
}

=== FILE: template_store.dfy ===
/** The template registry: the set of template names recorded in the `templates` table. */
module TemplateStore {

  /** The names present in the table; the database file itself is not modelled. */
  type Registry = set<string>

  /** The `SELECT 1 ... WHERE name = ?` lookup: whether a row with this name exists. */
  predicate Exists(reg: Registry, id: string)
  {
    id in reg
  }

  /**
   * `INSERT OR IGNORE`: afterwards the name is present, every other name keeps its
   * presence, and inserting a name that is already there changes nothing.
   */
  function Save(reg: Registry, id: string): (r: Registry)
    ensures Exists(r, id)
    ensures forall x :: Exists(r, x) <==> (Exists(reg, x) || x == id)
    ensures Exists(reg, id) ==> r == reg
  {
    reg + {id}
  }
}

=== FILE: wrappers.dfy ===
/** Optional values: a JSON key that may be absent from a record. */
module Wrappers {

  datatype Option<+T> = None | Some(value: T) {

    /** The carried value, or `default` when absent (Python's `dict.get(key, default)`). */
    function GetOr(default: T): (r: T)
      ensures Some? ==> r == value
      ensures None? ==> r == default
    {
      match this
      case Some(v) => v
      case None => default
    }
  }
}
